=== FILE: README.md ===
# KML to SQL converter: a Dafny model

`kmlToSql.py` reads KML files exported from a map tool and writes one SQL
file per KML file. For every placemark that has a `layer` SimpleData
element and a `coordinates` element with text, it writes a guarded `zona`
insert for the layer. Then it writes one `coordenada` insert for each
`lon,lat` pair that the pattern `(-?\d+\.\d+),(-?\d+\.\d+)` finds in the
coordinate text. A placemark with a layer whose `coordinates` element has
no text raises, which stops the file at that placemark: the lines already
written stay, and the file counts as failed. A directory run converts
every `*.kml` file in sorted order and counts successes and errors; the
process exit status follows from those counts.
The web front end `app.py` accepts only `.kml` uploads. After a batch run
it merges the SQL files into one consolidated file.

The model is nine modules:

- `Options`, `Text` and `Seqs` hold the generic definitions: string search and
  removal, decimal rendering, and filtering and sorting of sequences.
- `Coordinates` is the regular-expression scan. It has a token-by-token
  matcher and a declarative description of a leftmost, non-overlapping search
  (`Tiling`), and proves that the scan is the only such search.
- `Whitespace` covers `str.strip()` and proves that stripping never changes
  what the scan finds.
- `Sql` builds the two insert statements and has decoders that read them back.
- `Placemarks` models the loop over placemarks, including the exception a
  text-less `coordinates` element raises.
- `Batch` covers the output file name, the outcome of one file, the directory
  statistics and the exit status.
- `Web` covers the upload filter and the consolidated file.

The file system, the XML parser and the clock become parameters. A KML file
is `Unparsable` or a sequence of placemarks. An output path is `Unopenable`,
`Reliable`, or `FailsAfter(n)` lines. A directory search returns the paths it
finds. The timestamp is a string.

`kmlToSql.py` has one source for the layer: lines 71 and 80 run the same
`SimpleData name="layer"` query, with no fallback. The captured numbers are
inserted as they are, with no validation pass. The only counters are
`total`, `success` and `errors`.

## Model

| member | source | states |
|---|---|---|
| Coordinates.DigitRun | kmlToSql.py:92 | `\d+` is greedy: the run found from `i` is all decimal digits and is followed by the end of the text or a non-digit. |
| Coordinates.MatchAtIff | kmlToSql.py:92 | The pattern matches at position `p` exactly when some substring starting at `p` consists of two decimals (`-?\d+\.\d+`) around a `,`. |
| Coordinates.MatchAtPlaced | kmlToSql.py:92 | A match starts where it was tried and lies inside the text with its separator on a `,`. No digit follows the match, because the last group is greedy. |
| Coordinates.MatchIsPairText | kmlToSql.py:92 | The text a match covers has the shape of the whole pattern. |
| Coordinates.PairTextMatches | kmlToSql.py:92 | Text of the pattern's shape at `p` is always found by the matcher at `p`, possibly extended by further digits. |
| Coordinates.ScanFrom | kmlToSql.py:92 | Every span the search reports lies inside the text, with its `,` in place, at or after the start position. |
| Coordinates.ScanFromIsTiling | kmlToSql.py:92 | The search reports matches in text order without overlap. Each match is at the first position at or after the previous match's end where the pattern matches, and nothing matches after the last one. |
| Coordinates.TilingUnique | kmlToSql.py:92 | Only one sequence of matches is leftmost and non-overlapping, so the search's result is determined by that description. |
| Coordinates.ScanFromValid | kmlToSql.py:92 | Every reported match covers text of the pattern's shape. |
| Coordinates.ScanPairsAreDecimals | kmlToSql.py:92 | Both groups of every pair found are decimal numbers, with optional `-`, digits, `.` and digits. |
| Coordinates.ScanPairsInText | kmlToSql.py:92 | The `k`-th match covers exactly pair `k`'s first group, a `,`, and its second group. |
| Coordinates.ScanEmptyIff | kmlToSql.py:92 | The scan finds nothing exactly when no substring of the text has the pattern's shape. |
| Coordinates.NoDotNoPairs | kmlToSql.py:92 | Text without a `.`, such as integer coordinates `10,20`, yields no pairs. |
| Coordinates.DecimalHasNoComma | kmlToSql.py:92 | A captured decimal never contains a `,`. |
| Coordinates.WideScan | kmlToSql.py:92 | `\d` matches digits of any script: `１.０,２.０` in fullwidth digits yields one pair. |
| Whitespace.StripLeft | kmlToSql.py:91 | Removes exactly the leading whitespace: the result is a suffix, everything removed is whitespace, and the result does not start with whitespace. |
| Whitespace.StripRight | kmlToSql.py:91 | Removes exactly the trailing whitespace: the result is a prefix, everything removed is whitespace, and the result does not end with whitespace. |
| Whitespace.Strip | kmlToSql.py:91 | A non-empty stripped text neither starts nor ends with whitespace. |
| Whitespace.StripParts | kmlToSql.py:91 | The original text is the stripped text with whitespace before and after it. |
| Whitespace.ScanInertPrefix | kmlToSql.py:92 | Characters that cannot be part of a match change nothing when placed before the text. |
| Whitespace.ScanInertSuffix | kmlToSql.py:92 | Characters that cannot be part of a match change nothing when placed after the text. |
| Whitespace.ScanIgnoresStrip | kmlToSql.py:91-92 | Scanning the stripped coordinate text finds the same pairs as scanning the raw text. |
| Coordinates.SampleScan | kmlToSql.py:92 | `-38.5,-7.2` yields the single pair (`-38.5`, `-7.2`). |
| Sql.ZonaInsert | kmlToSql.py:95-97 | The zona insert ends in `;` and a line break. |
| Sql.CoordInsert | kmlToSql.py:102-103 | The coordenada insert ends in `;` and a line break. |
| Sql.ZonaRoundTrip | kmlToSql.py:95-97 | Any layer text can be read back from its zona insert, even one containing quotes or the statement's own fixed text. |
| Sql.DecodeZonaSound | kmlToSql.py:95-97 | Every line the zona decoder accepts is exactly the insert for the layer it returns. |
| Sql.CoordRoundTrip | kmlToSql.py:102-103 | The latitude, longitude and layer can be read back from a coordenada insert when the two numbers hold no `,`. |
| Sql.DecodeCoordSound | kmlToSql.py:102-103 | Every line the coordenada decoder accepts is exactly the insert for the row it returns. |
| Sql.RenderRoundTrip | kmlToSql.py:95-103 | Every statement the converter can write reads back from its rendered line. |
| Sql.DecodeSound | kmlToSql.py:95-103 | Every accepted line is the rendering of a statement the converter can write. |
| Sql.StatementsDistinct | kmlToSql.py:95-103 | A zona insert is never mistaken for a coordenada insert, and a coordenada insert never for a zona insert. |
| Placemarks.CoordStatements | kmlToSql.py:100-103 | One coordenada insert per pair, in order. Each writes the pair's second capture as latitude and its first as longitude. |
| Placemarks.ProcessPlacemarks | kmlToSql.py:62-109 | The loop writes exactly the statements of the declarative run and raises exactly when the run aborts. Without an exception, it reports success exactly when the run counted a placemark. |
| Placemarks.ProcessAppend | kmlToSql.py:67-107 | Processing a document in two parts is processing the first part and then the second. |
| Placemarks.SkippedIff | kmlToSql.py:71-89 | A placemark adds nothing exactly when it has no layer element or no coordinates element. |
| Placemarks.RaisedIff | kmlToSql.py:89-91 | A placemark raises exactly when it has a layer and a coordinates element without text. |
| Placemarks.EmittedStatements | kmlToSql.py:91-103 | An emitting placemark writes its zona insert first, then one coordenada insert per pair of its stripped text, with the captures swapped. |
| Placemarks.EmittedRun | kmlToSql.py:89-105 | A placemark with a layer and coordinate text writes its statements and counts once. |
| Placemarks.EmptyCoordinatesStillCount | kmlToSql.py:94-105 | Coordinate text with no pair still writes the zona insert and counts as processed. |
| Placemarks.OnePairStatements | kmlToSql.py:94-103 | Text with a single pair gives exactly a zona insert and one coordenada insert. |
| Placemarks.SampleStatements | kmlToSql.py:89-105 | For `-38.5,-7.2`, `-7.2` becomes the latitude and `-38.5` the longitude. |
| Placemarks.EmittedDecode | kmlToSql.py:94-103 | Every line a placemark emits reads back as the statement it renders. |
| Placemarks.ProcessRenderable | kmlToSql.py:67-107 | Everything the loop writes, finished or not, can be read back from its line. |
| Placemarks.CompletedIff | kmlToSql.py:67-107 | The loop finishes exactly when no placemark with a layer has a text-less coordinates element. |
| Placemarks.ProcessedIff | kmlToSql.py:65-109 | The count never exceeds the number of placemarks. The loop's result is True exactly when some placemark reached emission. |
| Placemarks.AbortedAt | kmlToSql.py:67-107 | When placemark `k` is the first to raise, the output is exactly the statements of the placemarks before it. |
| Batch.Basename | kmlToSql.py:18 | The base name has no `/` and is a suffix of the path. |
| Batch.BasenameOf | kmlToSql.py:18 | The base name of `dir/name` is `name`. |
| Batch.StemSplits | kmlToSql.py:19 | The stem is a prefix of the name, and what `splitext` cuts off is empty or a `.` followed by no other `.`. |
| Batch.StemOf | kmlToSql.py:19 | For an extension without `.`, cutting it off `base.ext` gives `base`, provided `base` is not made only of dots. |
| Batch.OutputNameOfKml | kmlToSql.py:18-19 | `dir/x.kml` is written to `output_inserts_x.sql`. |
| Batch.OutputNamesDistinct | kmlToSql.py:18-19 | Different KML files in one directory get different output files. |
| Batch.ProcessKmlFileIff | kmlToSql.py:22-46 | A file succeeds exactly when it parses, its output opens and takes every write, and no placemark raises. This call opens (and truncates) the output file exactly when the KML parsed and the output could be opened; an older output file left by an earlier run is outside the model. |
| Batch.SuccessWithoutPlacemarks | kmlToSql.py:32-42 | A file where no placemark has a layer still succeeds, with an empty output, because the loop's False only changes the message. |
| Batch.OutputDecodes | kmlToSql.py:32-46 | Whatever the output file holds is a prefix of the loop's statements, complete for a reliable output. Each line ends in `;` and a line break and reads back as its statement. |
| Batch.KmlFiles | kmlToSql.py:111-132 | The files processed are the paths found, sorted; none when the directory is missing. |
| Batch.RunDirectory | kmlToSql.py:134-163 | The counting loop gives the directory statistics, with successes and errors adding up to the total. |
| Batch.StatsAddUp | kmlToSql.py:144-163 | Every file found counts once, as a success or as an error. |
| Batch.NoErrorsIff | kmlToSql.py:146-159 | There are no errors exactly when every file found is converted. |
| Batch.ExitStatus | kmlToSql.py:215-243 | The exit status is 0 or 1. |
| Batch.FileExitIff | kmlToSql.py:222-233 | A single file exits 0 exactly when it exists, parses, its output takes every write and no placemark raises. |
| Batch.DirectoryExitIff | kmlToSql.py:235-240 | A directory exits 0 exactly when every KML file in it is converted. |
| Batch.MissingDirectoryExitsZero | kmlToSql.py:121-147 | A path that is no directory gives empty statistics and exit status 0. |
| Web.Lower | app.py:24 | Lowering maps each character on its own and keeps the length. |
| Web.AllowedFileIff | app.py:21-24 | A name is accepted exactly when it ends in `.` followed by three characters that lower to `k`, `m`, `l`. |
| Web.NoDotRefused | app.py:23 | A name without a `.` is refused. |
| Web.AllowedFileSamples | app.py:21-24 | `a.KML` and `a.txt.kml` are accepted and `a.kml.txt` is refused: only the last extension counts, in any case. |
| Web.Terminated | app.py:162-163 | Every merged content ends in a line break. |
| Web.TerminatedProps | app.py:160-163 | The content is kept, and a line break is added exactly when it lacked one. |
| Web.SectionRoundTrip | app.py:156-165 | A section reads back as its content between the two banners of its name. |
| Web.SectionsAppend | app.py:151-165 | The sections of a listing split at any point are the sections of the parts, in order. |
| Web.SectionsOfResultFiles | app.py:151-152 | Only result files contribute to the consolidated file. |
| Web.MergedFiles | app.py:151-152 | The files merged are exactly the `.sql` files of the folder, in sorted order, and never the consolidated file itself. |
| Web.ConsolidatedFile | app.py:137-172 | After a successful batch, the answer links the consolidated file: a header counting the successes, then the sections of the result files in sorted order. |
| Web.RespondIff | app.py:137-178 | A consolidated file is produced exactly when some file succeeded, and the statistics are always returned. |
| Web.BannerNameOfOutput | app.py:156 | An output file `output_inserts_x.sql` with an ordinary stem `x` shows `x` in its banners. |

## Left out

- XML parsing (`ET.parse`, `findall`, `find` with namespaces) is not modelled. A KML file is abstracted to its placemarks in document order. Each placemark has its first `SimpleData name="layer"` element and its first `coordinates` element.
- The two lookups on lines 71 and 80 use the same query, so they are modelled as one lookup. The name and the layer are therefore the same element.
- The file system is not modelled directly. In `kmlToSql.py`, `os.path.isfile`, `os.path.isdir`, `glob.glob` and `open` become the fields of `Batch.Host`. In `app.py`, `os.listdir` of the results folder and the reads of the result files become the `listing` and `read` parameters of `Web.Respond`.
- A failing write is modelled as `FailsAfter(n)`, a whole number of lines accepted. Partial lines left by buffering are not modelled.
- Printing is not modelled: progress messages, warnings, and the summary on lines 165-181, including its floating-point success rate.
- Batch.ProcessKmlFile: does not model a print that raises. Every print inside the `try` of line 32 (the placemark loop's progress lines from line 63 on, and the status lines 38 and 41) can raise an encoding error on an output stream that cannot encode its text; the `except` on line 44 catches it and the file returns False. The prints on lines 26 and 45 sit in `except` handlers, so an error there leaves `process_kml_file` uncaught. The model treats printing as unable to fail.
- Argument parsing on lines 183-213 is not modelled. `Batch.Invocation` takes its place as the `-f`/`-d` choice, and argparse's own usage errors are left out.
- The non-`.kml` warning on lines 228-229 only prints, so it is not modelled.
- The clock reading in the header is a string parameter; `strftime` is not modelled.
- In `app.py`, the web layer is not modelled: Flask routes, request handling, `secure_filename`, `clean_old_files`, the upload folders, `chdir`, the single-file upload route, the download route, and the `except` branch that answers with a JSON failure carrying the exception text, for example when a result file cannot be read. The JSON answer keeps the statistics and the download link but not the message text.
- Web.Lower: models `str.lower()` only as far as comparing against `kml` needs it. That is ASCII capitals and the KELVIN SIGN; every other character is kept.
- Coordinates.Scan: `\d` is Unicode general category Nd as of Unicode 15.0. Digits added in later Unicode versions are not included.
- Sql.ZonaInsert: the layer text is spliced into the statement unescaped, as the source does. The model records this and does not treat it as a defect to correct.

=== FILE: batch.dfy ===
/**
 * The file and batch level of `kmlToSql.py`: the output name derived from
 * a KML path (lines 18-19), the outcome of `process_kml_file` (lines
 * 7-46), the statistics of `process_directory` (lines 134-163) over the
 * sorted list of KML files (lines 111-132), and the exit status `main`
 * returns (lines 215-240).
 *
 * The file system is a parameter: whether a KML file parses, whether its
 * output file can be opened, and which `*.kml` paths the directory search
 * finds are inputs to these functions.
 */
module Batch {
  import opened Options
  import opened Text
  import opened Seqs
  import opened Sql
  import opened Placemarks

  // ---------------------------------------------------------------------
  // Output file name
  // ---------------------------------------------------------------------

  /** `os.path.basename`: what follows the last `/`. */
  function Basename(path: string): (r: string)
    ensures forall k :: 0 <= k < |r| ==> r[k] != '/'
    ensures EndsWith(path, r)
  {
    match LastIndexOf(path, '/')
    case None => path
    case Some(i) => path[i + 1..]
  }

  predicate AllDots(s: string) {
    forall k :: 0 <= k < |s| ==> s[k] == '.'
  }

  /**
   * `os.path.splitext(name)[0]` for a name without `/`: the name cut at
   * its last `.`, unless only dots come before that `.` (a leading-dot
   * name such as `.kml` has no extension).
   */
  function Stem(name: string): string {
    match LastIndexOf(name, '.')
    case None => name
    case Some(d) => if AllDots(name[..d]) then name else name[..d]
  }

  /** Line 19: the SQL file written for a KML path, in the working directory. */
  function OutputName(path: string): string {
    "output_inserts_" + Stem(Basename(path)) + ".sql"
  }

  /** The basename of a path ending in `/name` is `name`. */
  lemma BasenameOf(dir: string, name: string)
    requires forall k :: 0 <= k < |name| ==> name[k] != '/'
    ensures Basename(dir + "/" + name) == name
  {
    var p := dir + "/" + name;
    LastIndexOfIs(p, '/', |dir|);
    assert p[|dir| + 1..] == name;
  }

  /** A path without `/` is its own basename. */
  lemma BasenameBare(name: string)
    requires forall k :: 0 <= k < |name| ==> name[k] != '/'
    ensures Basename(name) == name
  {
  }

  /**
   * The stem is what comes before the extension: the stem followed by the
   * removed part gives back the name, and the removed part is either empty
   * or a `.` followed by no other `.`.
   */
  lemma StemSplits(name: string)
    ensures StartsWith(name, Stem(name))
    ensures var ext := name[|Stem(name)|..];
      ext == [] || (ext[0] == '.' && forall k :: 1 <= k < |ext| ==> ext[k] != '.')
  {
    var r := Stem(name);
    match LastIndexOf(name, '.')
    case None =>
    case Some(d) =>
      if !AllDots(name[..d]) {
        var ext := name[d..];
        assert forall k :: 1 <= k < |ext| ==> ext[k] == name[d + k];
      }
  }

  /** Cutting the extension off `base.ext` gives `base`, when `base` is more than dots. */
  lemma StemOf(base: string, ext: string)
    requires !AllDots(base)
    requires forall k :: 0 <= k < |ext| ==> ext[k] != '.'
    ensures Stem(base + "." + ext) == base
  {
    var name := base + "." + ext;
    LastIndexOfIs(name, '.', |base|);
    assert name[..|base|] == base;
  }

  /** A name without `.` has no extension, and neither has a name of the form `.ext`. */
  lemma StemUnchanged(name: string)
    requires (forall k :: 0 <= k < |name| ==> name[k] != '.')
          || (|name| > 0 && name[0] == '.' && forall k :: 1 <= k < |name| ==> name[k] != '.')
    ensures Stem(name) == name
  {
    if |name| > 0 && name[0] == '.' {
      LastIndexOfIs(name, '.', 0);
    }
  }

  /** `dir/base.kml` writes `output_inserts_base.sql`. */
  lemma OutputNameOfKml(dir: string, base: string)
    requires forall k :: 0 <= k < |base| ==> base[k] != '/'
    requires |base| > 0 && base[0] != '.'
    ensures OutputName(dir + "/" + base + ".kml") == "output_inserts_" + base + ".sql"
  {
    assert dir + "/" + base + ".kml" == dir + "/" + (base + ".kml");
    BasenameOf(dir, base + ".kml");
    assert !AllDots(base);
    StemOf(base, "kml");
    assert base + "." + "kml" == base + ".kml";
  }

  /**
   * Two different `*.kml` names in one directory, neither starting with a
   * `.`, write to different output files.
   */
  lemma OutputNamesDistinct(dir: string, a: string, b: string)
    requires forall k :: 0 <= k < |a| ==> a[k] != '/'
    requires forall k :: 0 <= k < |b| ==> b[k] != '/'
    requires |a| > 0 && a[0] != '.' && |b| > 0 && b[0] != '.'
    requires a != b
    ensures OutputName(dir + "/" + a + ".kml") != OutputName(dir + "/" + b + ".kml")
  {
    OutputNameOfKml(dir, a);
    OutputNameOfKml(dir, b);
    var pre := "output_inserts_";
    var na, nb := pre + a + ".sql", pre + b + ".sql";
    assert na[|pre|..|na| - 4] == a;
    assert nb[|pre|..|nb| - 4] == b;
  }

  // ---------------------------------------------------------------------
  // One KML file
  // ---------------------------------------------------------------------

  /** What `ET.parse` makes of a file: nothing, or the placemarks in document order. */
  datatype KmlSource = Unparsable | Parsed(placemarks: seq<Placemark>)

  /**
   * What the output path offers once `open(..., 'w')` is tried: it cannot be
   * opened; it takes every line; or it takes `accepted` lines, and the
   * next write, or the flush when the file is closed, raises.
   */
  datatype Target = Unopenable | Reliable | FailsAfter(accepted: nat)

  /**
   * What `process_kml_file` returns, and what its output file holds
   * afterwards when it was opened: the lines written, kept even when an
   * exception stopped the writing.
   */
  datatype FileOutcome = FileOutcome(success: bool, output: Option<seq<string>>)

  /** The lines written for some statements. */
  function RenderAll(sts: seq<Statement>): seq<string> {
    seq(|sts|, k requires 0 <= k < |sts| => Render(sts[k]))
  }

  /**
   * Lines 22-46: a parse failure returns False before anything is opened;
   * a failure to open the output returns False; otherwise the placemark
   * loop runs. Any exception inside the `with` block, from a placemark or
   * from a write or the closing flush, is caught and returns False; without
   * one the file returns True, whatever the loop itself reported.
   */
  function ProcessKmlFile(source: KmlSource, target: Target): FileOutcome {
    match source
    case Unparsable => FileOutcome(false, None)
    case Parsed(ps) =>
      var lines := RenderAll(Process(ps).lines);
      match target
      case Unopenable => FileOutcome(false, None)
      case Reliable => FileOutcome(Process(ps).Completed?, Some(lines))
      case FailsAfter(n) => FileOutcome(false, Some(if n < |lines| then lines[..n] else lines))
  }

  /**
   * A file succeeds exactly when it parses, its output opens and takes
   * every write, and no placemark raises; this call opens (and truncates)
   * the output file exactly when the KML parsed and the output could be
   * opened.
   */
  lemma ProcessKmlFileIff(source: KmlSource, target: Target)
    ensures ProcessKmlFile(source, target).success
        <==> source.Parsed? && target.Reliable? && NoneRaise(source.placemarks)
    ensures ProcessKmlFile(source, target).output.Some? <==> source.Parsed? && !target.Unopenable?
  {
    if source.Parsed? {
      CompletedIff(source.placemarks);
    }
  }

  /** Lines 37-42: a file returns True even when no placemark was processed. */
  lemma SuccessWithoutPlacemarks(ps: seq<Placemark>)
    requires forall k :: 0 <= k < |ps| ==> ps[k].layer.None?
    ensures ProcessKmlFile(Parsed(ps), Reliable) == FileOutcome(true, Some([]))
  {
    forall k | 0 <= k < |ps|
      ensures StepOf(ps[k]) == Skipped
    {
      SkippedIff(ps[k]);
    }
    NoLines(ps);
    assert |RenderAll([])| == 0;
  }

  /** Placemarks that are all skipped write nothing. */
  lemma {:induction false} NoLines(ps: seq<Placemark>)
    requires forall k :: 0 <= k < |ps| ==> StepOf(ps[k]) == Skipped
    ensures Process(ps) == Completed([], 0)
    decreases |ps|
  {
    if |ps| > 0 {
      assert forall k :: 0 <= k < |ps[1..]| ==> StepOf(ps[1..][k]) == Skipped by {
        forall k | 0 <= k < |ps[1..]|
          ensures StepOf(ps[1..][k]) == Skipped
        {
          assert ps[1..][k] == ps[k + 1];
        }
      }
      NoLines(ps[1..]);
      SkippedIff(ps[0]);
      ThenUnit(Completed([], 0));
    }
  }

  /**
   * Every line in an output file, complete or cut short, is a statement
   * ending in `;\n` that reads back as the statement the loop produced at
   * that position.
   */
  lemma OutputDecodes(ps: seq<Placemark>, target: Target, k: nat)
    requires !target.Unopenable?
    requires k < |ProcessKmlFile(Parsed(ps), target).output.value|
    ensures var out := ProcessKmlFile(Parsed(ps), target).output.value;
      && |out| <= |Process(ps).lines|
      && (target.Reliable? ==> |out| == |Process(ps).lines|)
      && EndsWith(out[k], ";\n")
      && Decode(out[k]) == Some(Process(ps).lines[k])
  {
    OutputLines(ps, target);
    ProcessDecodes(ps, k);
  }

  /** The output holds the rendered statements in order, all of them when the target is reliable. */
  lemma OutputLines(ps: seq<Placemark>, target: Target)
    requires !target.Unopenable?
    ensures var out := ProcessKmlFile(Parsed(ps), target).output.value;
      && |out| <= |Process(ps).lines|
      && (target.Reliable? ==> |out| == |Process(ps).lines|)
      && forall k :: 0 <= k < |out| ==> out[k] == Render(Process(ps).lines[k])
  {
  }

  // ---------------------------------------------------------------------
  // A directory
  // ---------------------------------------------------------------------

  /**
   * Lines 121-132: no files when the directory is missing (`None`) or the
   * search finds nothing, otherwise the paths found, sorted.
   */
  function KmlFiles(found: Option<seq<string>>): (r: seq<string>)
    ensures Sorted(r)
    ensures found.Some? ==> multiset(r) == multiset(found.value)
    ensures found.None? ==> r == []
  {
    match found
    case None => []
    case Some(paths) => Sort(paths)
  }

  datatype Stats = Stats(total: nat, success: nat, errors: nat)

  /** How many of `files` succeed. */
  function CountSuccesses(files: seq<string>, succeeds: string -> bool): (n: nat)
    ensures n <= |files|
  {
    if |files| == 0 then 0
    else CountSuccesses(files[..|files| - 1], succeeds) + (if succeeds(files[|files| - 1]) then 1 else 0)
  }

  /** Lines 144-159, with `succeeds` standing for `process_kml_file`. */
  function ProcessDirectory(found: Option<seq<string>>, succeeds: string -> bool): Stats {
    var files := KmlFiles(found);
    if |files| == 0 then Stats(0, 0, 0)
    else
      var ok := CountSuccesses(files, succeeds);
      Stats(|files|, ok, |files| - ok)
  }

  /** The loop of lines 149-159, counting as it goes. */
  method RunDirectory(found: Option<seq<string>>, succeeds: string -> bool) returns (stats: Stats)
    ensures stats == ProcessDirectory(found, succeeds)
    ensures stats.success + stats.errors == stats.total
  {
    var files := KmlFiles(found);
    if |files| == 0 {
      return Stats(0, 0, 0);
    }
    stats := Stats(|files|, 0, 0);
    var i := 0;
    while i < |files|
      invariant 0 <= i <= |files|
      invariant stats.total == |files|
      invariant stats.success == CountSuccesses(files[..i], succeeds)
      invariant stats.success + stats.errors == i
    {
      assert files[..i + 1][..i] == files[..i];
      if succeeds(files[i]) {
        stats := stats.(success := stats.success + 1);
      } else {
        stats := stats.(errors := stats.errors + 1);
      }
      i := i + 1;
    }
    assert files[..i] == files;
  }

  /** Every listed file counts once, as a success or as an error. */
  lemma StatsAddUp(found: Option<seq<string>>, succeeds: string -> bool)
    ensures var stats := ProcessDirectory(found, succeeds);
      && stats.success + stats.errors == stats.total
      && stats.total == (if found.Some? then |found.value| else 0)
  {
    if found.Some? {
      assert |KmlFiles(found)| == |multiset(KmlFiles(found))| == |multiset(found.value)| == |found.value|;
    }
  }

  /** Errors are zero exactly when every file succeeds. */
  lemma {:induction false} CountAllIff(files: seq<string>, succeeds: string -> bool)
    ensures CountSuccesses(files, succeeds) == |files| <==> forall k :: 0 <= k < |files| ==> succeeds(files[k])
    decreases |files|
  {
    if |files| > 0 {
      var init := files[..|files| - 1];
      CountAllIff(init, succeeds);
      assert forall k :: 0 <= k < |init| ==> init[k] == files[k];
    }
  }

  /** Lines 146-159: no errors exactly when every file found succeeds (vacuously when none is found). */
  lemma NoErrorsIff(found: Option<seq<string>>, succeeds: string -> bool)
    ensures ProcessDirectory(found, succeeds).errors == 0
        <==> forall f :: f in KmlFiles(found) ==> succeeds(f)
  {
    var files := KmlFiles(found);
    CountAllIff(files, succeeds);
  }

  // ---------------------------------------------------------------------
  // The command line
  // ---------------------------------------------------------------------

  /** The mutually exclusive `-f` / `-d` argument. */
  datatype Invocation = FileMode(file: string) | DirectoryMode(directory: string)

  /**
   * The file system as `main` meets it: which paths are regular files,
   * what each KML file parses to, what each output path offers, and
   * which `*.kml` paths a directory holds (`None` when it is no directory).
   */
  datatype Host = Host(
    isFile: string -> bool,
    source: string -> KmlSource,
    target: string -> Target,
    found: string -> Option<seq<string>>)

  /** `process_kml_file(path)` on `host`. */
  function Succeeds(host: Host, path: string): bool {
    ProcessKmlFile(host.source(path), host.target(OutputName(path))).success
  }

  /**
   * Lines 215-243: the status the process exits with. An empty argument is
   * falsy, so `main` falls through both branches and returns `None`, which
   * `exit` turns into status 0.
   */
  function ExitStatus(inv: Invocation, host: Host): (code: nat)
    ensures code <= 1
  {
    match inv
    case FileMode(f) =>
      if f == "" then 0
      else if !host.isFile(f) then 1
      else if Succeeds(host, f) then 0
      else 1
    case DirectoryMode(d) =>
      if d == "" then 0
      else if ProcessDirectory(host.found(d), p => Succeeds(host, p)).errors == 0 then 0
      else 1
  }

  /** Lines 222-233: a single file exits 0 exactly when it exists and is converted. */
  lemma FileExitIff(f: string, host: Host)
    requires f != ""
    ensures ExitStatus(FileMode(f), host) == 0
        <==> host.isFile(f) && host.source(f).Parsed? && host.target(OutputName(f)).Reliable?
             && NoneRaise(host.source(f).placemarks)
  {
    ProcessKmlFileIff(host.source(f), host.target(OutputName(f)));
  }

  /** Lines 235-240: a directory exits 0 exactly when every KML file in it is converted. */
  lemma DirectoryExitIff(d: string, host: Host)
    requires d != ""
    ensures ExitStatus(DirectoryMode(d), host) == 0
        <==> forall f :: f in KmlFiles(host.found(d)) ==> Succeeds(host, f)
  {
    NoErrorsIff(host.found(d), p => Succeeds(host, p));
  }

  /** A path that is no directory gives empty statistics and exit status 0. */
  lemma MissingDirectoryExitsZero(d: string, host: Host)
    requires host.found(d).None?
    ensures ProcessDirectory(host.found(d), p => Succeeds(host, p)) == Stats(0, 0, 0)
    ensures ExitStatus(DirectoryMode(d), host) == 0
  {
  }
}

=== FILE: coordinates.dfy ===
/**
 * The coordinate scan of `kmlToSql.py`: the text of a `coordinates` element
 * is stripped and searched with the pattern `(-?\d+\.\d+),(-?\d+\.\d+)`,
 * collecting every leftmost, non-overlapping match.
 *
 * The pattern never needs backtracking: the optional sign is taken when
 * present, and each digit run is greedy and must be followed by `.`, `,`
 * or nothing, so a match at a given position is found by one forward
 * pass over the pattern's tokens. `MatchTokens` is that pass and `MatchAt`
 * applies it to the whole pattern; `ScanFrom` walks the text as `findall`
 * does; `Tiling` describes the result declaratively, and `TilingUnique`
 * shows there is only one such result.
 */
module Coordinates {
  import opened Options
  import opened Text

  /** The two captured groups of one match, as text; KML writes longitude first. */
  datatype Pair = Pair(first: string, second: string)

  /** Where one match sits in the text: `s[start..comma]`, `,`, `s[comma+1..end]`. */
  datatype Span = Span(start: nat, comma: nat, end: nat)

  /**
   * `\d` in a `str` pattern: a decimal digit of any script, that is a
   * character of Unicode general category Nd (Unicode 15.0): `0`-`9`, or
   * one of the other scripts' digits, all at U+0660 or above.
   */
  predicate IsDecimalDigit(c: char) {
    '0' <= c <= '9' || ('\U{660}' <= c && IsOtherDigit(c))
  }

  /** The 63 runs of category Nd outside ASCII. */
  predicate IsOtherDigit(c: char) {
    ('\U{660}' <= c <= '\U{669}') || ('\U{6F0}' <= c <= '\U{6F9}') || ('\U{7C0}' <= c <= '\U{7C9}') ||
    ('\U{966}' <= c <= '\U{96F}') || ('\U{9E6}' <= c <= '\U{9EF}') || ('\U{A66}' <= c <= '\U{A6F}') ||
    ('\U{AE6}' <= c <= '\U{AEF}') || ('\U{B66}' <= c <= '\U{B6F}') || ('\U{BE6}' <= c <= '\U{BEF}') ||
    ('\U{C66}' <= c <= '\U{C6F}') || ('\U{CE6}' <= c <= '\U{CEF}') || ('\U{D66}' <= c <= '\U{D6F}') ||
    ('\U{DE6}' <= c <= '\U{DEF}') || ('\U{E50}' <= c <= '\U{E59}') || ('\U{ED0}' <= c <= '\U{ED9}') ||
    ('\U{F20}' <= c <= '\U{F29}') || ('\U{1040}' <= c <= '\U{1049}') || ('\U{1090}' <= c <= '\U{1099}') ||
    ('\U{17E0}' <= c <= '\U{17E9}') || ('\U{1810}' <= c <= '\U{1819}') || ('\U{1946}' <= c <= '\U{194F}') ||
    ('\U{19D0}' <= c <= '\U{19D9}') || ('\U{1A80}' <= c <= '\U{1A89}') || ('\U{1A90}' <= c <= '\U{1A99}') ||
    ('\U{1B50}' <= c <= '\U{1B59}') || ('\U{1BB0}' <= c <= '\U{1BB9}') || ('\U{1C40}' <= c <= '\U{1C49}') ||
    ('\U{1C50}' <= c <= '\U{1C59}') || ('\U{A620}' <= c <= '\U{A629}') || ('\U{A8D0}' <= c <= '\U{A8D9}') ||
    ('\U{A900}' <= c <= '\U{A909}') || ('\U{A9D0}' <= c <= '\U{A9D9}') || ('\U{A9F0}' <= c <= '\U{A9F9}') ||
    ('\U{AA50}' <= c <= '\U{AA59}') || ('\U{ABF0}' <= c <= '\U{ABF9}') || ('\U{FF10}' <= c <= '\U{FF19}') ||
    ('\U{104A0}' <= c <= '\U{104A9}') || ('\U{10D30}' <= c <= '\U{10D39}') || ('\U{11066}' <= c <= '\U{1106F}') ||
    ('\U{110F0}' <= c <= '\U{110F9}') || ('\U{11136}' <= c <= '\U{1113F}') || ('\U{111D0}' <= c <= '\U{111D9}') ||
    ('\U{112F0}' <= c <= '\U{112F9}') || ('\U{11450}' <= c <= '\U{11459}') || ('\U{114D0}' <= c <= '\U{114D9}') ||
    ('\U{11650}' <= c <= '\U{11659}') || ('\U{116C0}' <= c <= '\U{116C9}') || ('\U{11730}' <= c <= '\U{11739}') ||
    ('\U{118E0}' <= c <= '\U{118E9}') || ('\U{11950}' <= c <= '\U{11959}') || ('\U{11C50}' <= c <= '\U{11C59}') ||
    ('\U{11D50}' <= c <= '\U{11D59}') || ('\U{11DA0}' <= c <= '\U{11DA9}') || ('\U{11F50}' <= c <= '\U{11F59}') ||
    ('\U{16A60}' <= c <= '\U{16A69}') || ('\U{16AC0}' <= c <= '\U{16AC9}') || ('\U{16B50}' <= c <= '\U{16B59}') ||
    ('\U{1D7CE}' <= c <= '\U{1D7FF}') || ('\U{1E140}' <= c <= '\U{1E149}') || ('\U{1E2F0}' <= c <= '\U{1E2F9}') ||
    ('\U{1E4F0}' <= c <= '\U{1E4F9}') || ('\U{1E950}' <= c <= '\U{1E959}') || ('\U{1FBF0}' <= c <= '\U{1FBF9}')
  }

  predicate AllDigits(t: string) {
    forall k :: 0 <= k < |t| ==> IsDecimalDigit(t[k])
  }

  /** `\d+\.\d+`: digits, the first `.`, digits. */
  predicate IsUnsignedDecimal(u: string) {
    var k := IndexOf(u, '.');
    0 < k < |u| - 1 && AllDigits(u[..k]) && AllDigits(u[k + 1..])
  }

  /** `-?\d+\.\d+` */
  predicate IsDecimal(t: string) {
    if |t| > 0 && t[0] == '-' then IsUnsignedDecimal(t[1..]) else IsUnsignedDecimal(t)
  }

  /**
   * The whole of `t` matches `-?\d+\.\d+,-?\d+\.\d+`. A decimal holds no
   * `,`, so the separator is the first one.
   */
  predicate IsPairText(t: string) {
    var c := IndexOf(t, ',');
    c < |t| && IsDecimal(t[..c]) && IsDecimal(t[c + 1..])
  }

  /** `m` lies inside `s` with its separator on a `,`. */
  predicate Placed(s: string, m: Span) {
    m.start < m.comma < m.end <= |s| && s[m.comma] == ','
  }

  /** `m` covers text of the pattern's shape. */
  predicate ValidSpan(s: string, m: Span) {
    && Placed(s, m)
    && IsDecimal(s[m.start..m.comma])
    && IsDecimal(s[m.comma + 1..m.end])
  }

  /** The unsigned part of a decimal, and where its `.` sits. */
  lemma UnsignedDecimalShape(u: string) returns (k: nat)
    requires IsUnsignedDecimal(u)
    ensures 0 < k < |u| - 1 && u[k] == '.'
    ensures forall i :: 0 <= i < |u| && i != k ==> IsDecimalDigit(u[i])
  {
    k := IndexOf(u, '.');
    forall i | 0 <= i < |u| && i != k
      ensures IsDecimalDigit(u[i])
    {
      if i < k {
        assert u[..k][i] == u[i];
      } else {
        assert u[k + 1..][i - k - 1] == u[i];
      }
    }
  }

  /** Digits, one `.`, digits make an unsigned decimal. */
  lemma UnsignedDecimalFromShape(u: string, k: nat)
    requires 0 < k < |u| - 1 && u[k] == '.'
    requires forall i :: 0 <= i < |u| && i != k ==> IsDecimalDigit(u[i])
    ensures IsUnsignedDecimal(u)
  {
    IndexOfIs(u, '.', k);
    assert AllDigits(u[..k]);
    var v := u[k + 1..];
    forall i | 0 <= i < |v|
      ensures IsDecimalDigit(v[i])
    {
      assert v[i] == u[k + 1 + i];
    }
  }

  /** A decimal number contains a `.`. */
  lemma DecimalHasDot(t: string)
    requires IsDecimal(t)
    ensures exists k :: 0 <= k < |t| && t[k] == '.'
  {
    if |t| > 0 && t[0] == '-' {
      var k := UnsignedDecimalShape(t[1..]);
      assert t[k + 1] == '.';
    } else {
      var k := UnsignedDecimalShape(t);
    }
  }

  /** A decimal number contains no `,`. */
  lemma DecimalHasNoComma(t: string)
    requires IsDecimal(t)
    ensures forall k :: 0 <= k < |t| ==> t[k] != ','
  {
    if |t| > 0 && t[0] == '-' {
      var k := UnsignedDecimalShape(t[1..]);
      forall i | 0 < i < |t|
        ensures t[i] != ','
      {
        assert t[i] == t[1..][i - 1];
      }
    } else {
      var k := UnsignedDecimalShape(t);
    }
  }

  /** End of the maximal run of digits starting at `i` (greedy `\d*`). */
  function DigitRun(s: string, i: nat): (j: nat)
    requires i <= |s|
    ensures i <= j <= |s|
    ensures forall k :: i <= k < j ==> IsDecimalDigit(s[k])
    ensures j == |s| || !IsDecimalDigit(s[j])
    decreases |s| - i
  {
    if i < |s| && IsDecimalDigit(s[i]) then DigitRun(s, i + 1) else i
  }

  /**
   * One element of a regular expression built from `-?`, `\d+`, literal
   * characters and the `,` that separates the two captured groups.
   */
  datatype Token = OptionalMinus | Digits | Literal(c: char) | Separator

  /** `-?\d+\.\d+` */
  const DecimalPattern: seq<Token> := [OptionalMinus, Digits, Literal('.'), Digits]

  /** `(-?\d+\.\d+),(-?\d+\.\d+)` */
  const PairPattern: seq<Token> := DecimalPattern + [Separator] + DecimalPattern

  /**
   * Matching `pat` from position `i`, for a match that began at `start`;
   * `sep` is where the separator was matched so far. Each token is matched
   * greedily and never revisited: in these patterns a digit run is always
   * followed by `.`, `,` or the end, so giving back a digit can never let
   * the rest match, and `-?` only ever matches a `-` that no digit run could
   * use.
   */
  function MatchTokens(s: string, start: nat, sep: nat, i: nat, pat: seq<Token>): (r: Option<Span>)
    requires i <= |s|
    ensures r.Some? ==> r.value.start == start && i <= r.value.end <= |s|
    decreases |pat|
  {
    if |pat| == 0 then Some(Span(start, sep, i))
    else
      match pat[0]
      case OptionalMinus =>
        MatchTokens(s, start, sep, if i < |s| && s[i] == '-' then i + 1 else i, pat[1..])
      case Digits =>
        var j := DigitRun(s, i);
        if j == i then None else MatchTokens(s, start, sep, j, pat[1..])
      case Literal(c) =>
        if i < |s| && s[i] == c then MatchTokens(s, start, sep, i + 1, pat[1..]) else None
      case Separator =>
        if i < |s| && s[i] == ',' then MatchTokens(s, start, i, i + 1, pat[1..]) else None
  }

  /** Matching `p + q` is matching `p`, then `q` from where `p` stopped. */
  lemma {:induction false} MatchTokensAppend(s: string, start: nat, sep: nat, i: nat, p: seq<Token>, q: seq<Token>)
    requires i <= |s|
    ensures MatchTokens(s, start, sep, i, p + q) ==
      match MatchTokens(s, start, sep, i, p)
      case None => None
      case Some(m) => MatchTokens(s, start, m.comma, m.end, q)
    decreases |p|
  {
    if |p| > 0 {
      assert (p + q)[0] == p[0];
      assert (p + q)[1..] == p[1..] + q;
      match p[0]
      case OptionalMinus =>
        MatchTokensAppend(s, start, sep, if i < |s| && s[i] == '-' then i + 1 else i, p[1..], q);
      case Digits =>
        if DigitRun(s, i) != i {
          MatchTokensAppend(s, start, sep, DigitRun(s, i), p[1..], q);
        }
      case Literal(c) =>
        if i < |s| && s[i] == c {
          MatchTokensAppend(s, start, sep, i + 1, p[1..], q);
        }
      case Separator =>
        if i < |s| && s[i] == ',' {
          MatchTokensAppend(s, start, i, i + 1, p[1..], q);
        }
    } else {
      assert p + q == q;
    }
  }

  /** `DecimalPattern` read token by token: sign, digits, `.`, digits. */
  lemma DecimalTokensUnfold(s: string, start: nat, sep: nat, i: nat)
    requires i <= |s|
    ensures var a := if i < |s| && s[i] == '-' then i + 1 else i;
            var b := DigitRun(s, a);
            MatchTokens(s, start, sep, i, DecimalPattern) ==
              if b == a || b >= |s| || s[b] != '.' then None
              else if DigitRun(s, b + 1) == b + 1 then None
              else Some(Span(start, sep, DigitRun(s, b + 1)))
  {
    var p := DecimalPattern;
    assert p[1..][1..][1..][1..] == [];
    var a := if i < |s| && s[i] == '-' then i + 1 else i;
    assert MatchTokens(s, start, sep, i, p) == MatchTokens(s, start, sep, a, p[1..]);
    var b := DigitRun(s, a);
    if b != a {
      assert MatchTokens(s, start, sep, a, p[1..]) == MatchTokens(s, start, sep, b, p[1..][1..]);
      if b < |s| && s[b] == '.' {
        assert MatchTokens(s, start, sep, b, p[1..][1..]) == MatchTokens(s, start, sep, b + 1, p[1..][1..][1..]);
      }
    }
  }

  /** Where `-?\d+\.\d+` matching at `i` ends, if it matches there. */
  function NumberEnd(s: string, i: nat): Option<nat>
    requires i <= |s|
  {
    match MatchTokens(s, i, i, i, DecimalPattern)
    case None => None
    case Some(m) => Some(m.end)
  }

  /** `NumberEnd` read token by token. */
  lemma NumberEndUnfold(s: string, i: nat)
    requires i <= |s|
    ensures var a := if i < |s| && s[i] == '-' then i + 1 else i;
            var b := DigitRun(s, a);
            NumberEnd(s, i) ==
              if b == a || b >= |s| || s[b] != '.' then None
              else if DigitRun(s, b + 1) == b + 1 then None
              else Some(DigitRun(s, b + 1))
  {
    DecimalTokensUnfold(s, i, i, i);
  }

  /** A number found at `i` is not empty and stops before any further digit. */
  lemma NumberEndBounds(s: string, i: nat)
    requires i <= |s|
    ensures NumberEnd(s, i).Some? ==> i < NumberEnd(s, i).value <= |s|
    ensures NumberEnd(s, i).Some? ==> NumberEnd(s, i).value == |s| || !IsDecimalDigit(s[NumberEnd(s, i).value])
  {
    NumberEndUnfold(s, i);
  }

  /** What `NumberEnd` accepts is a decimal number. */
  lemma NumberEndIsDecimal(s: string, i: nat, e: nat)
    requires i <= |s| && NumberEnd(s, i) == Some(e)
    ensures IsDecimal(s[i..e])
  {
    NumberEndUnfold(s, i);
    var a := if i < |s| && s[i] == '-' then i + 1 else i;
    var b := DigitRun(s, a);
    assert e == DigitRun(s, b + 1);
    UnsignedFromRuns(s, a, b, e);
    assert a == i + 1 ==> s[i..e][1..] == s[a..e];
  }

  /** Two non-empty digit runs around a `.` are an unsigned decimal. */
  lemma UnsignedFromRuns(s: string, a: nat, b: nat, c: nat)
    requires a < b < c <= |s| && s[b] == '.' && b + 1 < c
    requires forall q :: a <= q < b ==> IsDecimalDigit(s[q])
    requires forall q :: b < q < c ==> IsDecimalDigit(s[q])
    ensures IsUnsignedDecimal(s[a..c])
  {
    var u := s[a..c];
    assert forall q :: 0 <= q < |u| && q != b - a ==> IsDecimalDigit(u[q]) by {
      forall q | 0 <= q < |u| && q != b - a
        ensures IsDecimalDigit(u[q])
      {
        assert u[q] == s[a + q];
      }
    }
    UnsignedDecimalFromShape(u, b - a);
  }

  /** A decimal number inside `s[a..b]`: optional sign, digits, `.` at `dot`, digits. */
  lemma DecimalLayout(s: string, a: nat, b: nat) returns (a': nat, dot: nat)
    requires a < b <= |s| && IsDecimal(s[a..b])
    ensures a' == if s[a] == '-' then a + 1 else a
    ensures a' < dot < b - 1 && s[dot] == '.'
    ensures forall q :: a' <= q < b && q != dot ==> IsDecimalDigit(s[q])
  {
    var t := s[a..b];
    a' := if t[0] == '-' then a + 1 else a;
    var u := s[a'..b];
    assert t[0] == '-' ==> t[1..] == u;
    var k := UnsignedDecimalShape(u);
    dot := a' + k;
    forall q | a' <= q < b && q != dot
      ensures IsDecimalDigit(s[q])
    {
      assert u[q - a'] == s[q];
    }
  }

  /**
   * Where the digit runs of a decimal number sit in the text decide where
   * `NumberEnd` stops: at least at the end of the number, and exactly there
   * when no digit follows.
   */
  lemma DecimalScans(s: string, a: nat, b: nat)
    requires a < b <= |s| && IsDecimal(s[a..b])
    ensures NumberEnd(s, a).Some? && NumberEnd(s, a).value >= b
    ensures b == |s| || !IsDecimalDigit(s[b]) ==> NumberEnd(s, a).value == b
  {
    var a', dot := DecimalLayout(s, a, b);
    assert DigitRun(s, a') == dot;
    var d2 := DigitRun(s, dot + 1);
    assert d2 >= b;
    NumberEndUnfold(s, a);
    assert NumberEnd(s, a) == Some(d2);
  }

  /**
   * The match of the whole pattern at position `i`, if there is one: the
   * first group runs from `start` to the separator, the second from there
   * to `end`.
   */
  function MatchAt(s: string, i: nat): Option<Span> {
    if i >= |s| then None else MatchTokens(s, i, i, i, PairPattern)
  }

  /** Matching `DecimalPattern` finds where `NumberEnd` stops and carries `start` and `sep` along. */
  lemma DecimalTokensEnd(s: string, start: nat, sep: nat, i: nat)
    requires i <= |s|
    ensures MatchTokens(s, start, sep, i, DecimalPattern) ==
      match NumberEnd(s, i)
      case None => None
      case Some(e) => Some(Span(start, sep, e))
  {
    DecimalTokensUnfold(s, start, sep, i);
    DecimalTokensUnfold(s, i, i, i);
  }

  /** `MatchAt` in terms of the two numbers and the `,` between them. */
  lemma MatchAtUnfold(s: string, i: nat)
    ensures MatchAt(s, i) ==
      if i >= |s| then None
      else
        match NumberEnd(s, i)
        case None => None
        case Some(j) =>
          if j < |s| && s[j] == ',' then
            match NumberEnd(s, j + 1)
            case None => None
            case Some(k) => Some(Span(i, j, k))
          else None
  {
    if i < |s| {
      var tail := [Separator] + DecimalPattern;
      assert PairPattern == DecimalPattern + tail;
      assert tail[0] == Separator && tail[1..] == DecimalPattern;
      MatchTokensAppend(s, i, i, i, DecimalPattern, tail);
      DecimalTokensEnd(s, i, i, i);
      var n := NumberEnd(s, i);
      if n.Some? {
        var j := n.value;
        assert MatchAt(s, i) == MatchTokens(s, i, i, j, tail);
        if j < |s| && s[j] == ',' {
          assert MatchTokens(s, i, i, j, tail) == MatchTokens(s, i, j, j + 1, DecimalPattern);
          DecimalTokensEnd(s, i, j, j + 1);
        }
      }
    }
  }

  /** A match starts where it was tried, sits inside the text around a `,`, and no digit follows it. */
  lemma MatchAtPlaced(s: string, i: nat)
    requires MatchAt(s, i).Some?
    ensures MatchAt(s, i).value.start == i && Placed(s, MatchAt(s, i).value)
    ensures MatchAt(s, i).value.end == |s| || !IsDecimalDigit(s[MatchAt(s, i).value.end])
  {
    MatchAtUnfold(s, i);
    NumberEndBounds(s, i);
    NumberEndBounds(s, MatchAt(s, i).value.comma + 1);
  }

  /** A match is two numbers found by `NumberEnd`, around a `,`. */
  lemma MatchAtNumbers(s: string, i: nat)
    requires MatchAt(s, i).Some?
    ensures var m := MatchAt(s, i).value;
      && m.start == i && m.comma < |s| && s[m.comma] == ','
      && NumberEnd(s, m.start) == Some(m.comma)
      && NumberEnd(s, m.comma + 1) == Some(m.end)
  {
    MatchAtUnfold(s, i);
  }

  /** Both captures of a match are decimal numbers. */
  lemma MatchAtValid(s: string, i: nat)
    requires MatchAt(s, i).Some?
    ensures ValidSpan(s, MatchAt(s, i).value)
  {
    var m := MatchAt(s, i).value;
    MatchAtPlaced(s, i);
    MatchAtNumbers(s, i);
    NumberEndIsDecimal(s, m.start, m.comma);
    NumberEndIsDecimal(s, m.comma + 1, m.end);
  }

  /** Two decimals around a `,` make text of the pattern's shape. */
  lemma PairTextFromParts(t: string, c: nat)
    requires c < |t| && t[c] == ','
    requires IsDecimal(t[..c]) && IsDecimal(t[c + 1..])
    ensures IsPairText(t)
  {
    CommaFirst(t, c);
    IndexOfIs(t, ',', c);
  }

  /** A `,` that follows a decimal is the first one. */
  lemma CommaFirst(t: string, c: nat)
    requires c <= |t| && IsDecimal(t[..c])
    ensures forall j :: 0 <= j < c ==> t[j] != ','
  {
    var a := t[..c];
    DecimalHasNoComma(a);
    forall j | 0 <= j < c
      ensures t[j] != ','
    {
      assert a[j] == t[j];
    }
  }

  /** Two decimals around the `,` at `c` of `s` make `s[p..q]` text of the pattern's shape. */
  lemma PairTextFromSpan(s: string, p: nat, k: nat, q: nat)
    requires p <= q <= |s| && k < q - p && s[p + k] == ','
    requires IsDecimal(s[p..p + k]) && IsDecimal(s[p + k + 1..q])
    ensures IsPairText(s[p..q])
  {
    SliceOfSlice(s, p, q, k);
    PairTextFromParts(s[p..q], k);
  }

  /** A match covers text of the pattern's shape. */
  lemma MatchIsPairText(s: string, i: nat)
    requires MatchAt(s, i).Some?
    ensures IsPairText(s[i..MatchAt(s, i).value.end])
  {
    var m := MatchAt(s, i).value;
    MatchAtValid(s, i);
    MatchAtPlaced(s, i);
    var k := m.comma - i;
    assert i + k == m.comma;
    PairTextFromSpan(s, i, k, m.end);
  }

  /**
   * Text of the pattern's shape starting at `p` is found by `MatchAt(s, p)`,
   * which may extend it with further digits (the last `\d+` is greedy).
   */
  lemma PairTextMatches(s: string, p: nat, q: nat)
    requires p <= q <= |s| && IsPairText(s[p..q])
    ensures MatchAt(s, p).Some? && MatchAt(s, p).value.end >= q
  {
    var k := PairTextComma(s[p..q]);
    SplitMatches(s, p, q, k);
  }

  /** Two decimals around the `,` at `c` are found by `MatchAt(s, p)`. */
  lemma DecimalsMatch(s: string, p: nat, c: nat, q: nat)
    requires p < c < q <= |s| && s[c] == ','
    requires IsDecimal(s[p..c]) && IsDecimal(s[c + 1..q])
    ensures MatchAt(s, p).Some? && MatchAt(s, p).value.end >= q
  {
    DecimalScans(s, p, c);
    assert !IsDecimalDigit(s[c]);
    assert NumberEnd(s, p) == Some(c);
    DecimalScans(s, c + 1, q);
    var e := NumberEnd(s, c + 1).value;
    MatchAtUnfold(s, p);
    assert MatchAt(s, p) == Some(Span(p, c, e));
  }

  /** The parts of `s[p..q]` around its `,` at `k` are found by `MatchAt(s, p)`. */
  lemma SplitMatches(s: string, p: nat, q: nat, k: nat)
    requires p <= q <= |s| && k < q - p && s[p..q][k] == ','
    requires IsDecimal(s[p..q][..k]) && IsDecimal(s[p..q][k + 1..])
    ensures MatchAt(s, p).Some? && MatchAt(s, p).value.end >= q
  {
    SliceOfSlice(s, p, q, k);
    DecimalsMatch(s, p, p + k, q);
  }

  /** Where the separator of text of the pattern's shape sits. */
  lemma PairTextComma(t: string) returns (k: nat)
    requires IsPairText(t)
    ensures 0 < k < |t| && t[k] == ','
    ensures IsDecimal(t[..k]) && IsDecimal(t[k + 1..])
  {
    k := IndexOf(t, ',');
    DecimalHasDot(t[..k]);
  }

  /** The parts of `s[p..q]` around position `k`, read in `s`. */
  lemma SliceOfSlice(s: string, p: nat, q: nat, k: nat)
    requires p <= q <= |s| && k < q - p
    ensures s[p..q][..k] == s[p..p + k]
    ensures s[p..q][k] == s[p + k]
    ensures s[p..q][k + 1..] == s[p + k + 1..q]
  {
    var t := s[p..q];
    var a, b := t[..k], s[p..p + k];
    assert forall j :: 0 <= j < k ==> a[j] == b[j];
    var u, v := t[k + 1..], s[p + k + 1..q];
    assert forall j :: 0 <= j < |u| ==> u[j] == v[j];
  }

  /** The pattern matches at `p` exactly when some text starting at `p` has its shape. */
  lemma MatchAtIff(s: string, p: nat)
    requires p <= |s|
    ensures MatchAt(s, p).Some? <==> exists q :: p <= q <= |s| && IsPairText(s[p..q])
  {
    if MatchAt(s, p).Some? {
      MatchIsPairText(s, p);
    }
    if exists q :: p <= q <= |s| && IsPairText(s[p..q]) {
      var q :| p <= q <= |s| && IsPairText(s[p..q]);
      PairTextMatches(s, p, q);
    }
  }

  ghost predicate NoMatchIn(s: string, lo: nat, hi: nat) {
    forall p: nat :: lo <= p < hi ==> MatchAt(s, p).None?
  }

  /**
   * `r` is what a leftmost, non-overlapping search from `i` finds: each
   * match is the one at the first position where the pattern matches, the
   * search resumes where it ended, and nothing matches after the last one.
   */
  ghost predicate Tiling(s: string, i: nat, r: seq<Span>)
    decreases |r|
  {
    if |r| == 0 then NoMatchIn(s, i, |s|)
    else
      && i <= r[0].start
      && NoMatchIn(s, i, r[0].start)
      && MatchAt(s, r[0].start) == Some(r[0])
      && Tiling(s, r[0].end, r[1..])
  }

  /** `re.findall` from position `i`, as match spans. */
  function ScanFrom(s: string, i: nat): (r: seq<Span>)
    ensures forall k :: 0 <= k < |r| ==> Placed(s, r[k]) && i <= r[k].start
    decreases |s| - i
  {
    if i >= |s| then []
    else
      match MatchAt(s, i)
      case Some(m) =>
        MatchAtPlaced(s, i);
        [m] + ScanFrom(s, m.end)
      case None => ScanFrom(s, i + 1)
  }

  /** One step of the scan where the pattern matches. */
  lemma ScanFromTake(s: string, i: nat)
    requires MatchAt(s, i).Some?
    ensures ScanFrom(s, i) == [MatchAt(s, i).value] + ScanFrom(s, MatchAt(s, i).value.end)
  {
  }

  /** One step of the scan where the pattern does not match. */
  lemma ScanFromSkip(s: string, i: nat)
    requires i < |s| && MatchAt(s, i).None?
    ensures ScanFrom(s, i) == ScanFrom(s, i + 1)
  {
  }

  /**
   * The scan is the leftmost, non-overlapping search: its matches come in
   * text order without overlapping, and they form the tiling.
   */
  lemma {:induction false} ScanFromIsTiling(s: string, i: nat)
    ensures forall k :: 0 < k < |ScanFrom(s, i)| ==> ScanFrom(s, i)[k - 1].end <= ScanFrom(s, i)[k].start
    ensures Tiling(s, i, ScanFrom(s, i))
    decreases |s| - i
  {
    var r := ScanFrom(s, i);
    if i < |s| {
      match MatchAt(s, i)
      case Some(m) =>
        ScanFromIsTiling(s, m.end);
        var rest := ScanFrom(s, m.end);
        assert r == [m] + rest;
        assert r[1..] == rest;
        assert Tiling(s, i, r);
      case None =>
        ScanFromIsTiling(s, i + 1);
        assert r == ScanFrom(s, i + 1);
        TilingStepBack(s, i, r);
    }
  }

  /** A position where nothing matches can be prepended to a tiling. */
  lemma TilingStepBack(s: string, i: nat, r: seq<Span>)
    requires MatchAt(s, i).None? && Tiling(s, i + 1, r)
    ensures Tiling(s, i, r)
  {
    if |r| == 0 {
      assert NoMatchIn(s, i, |s|);
    } else {
      assert NoMatchIn(s, i, r[0].start);
    }
  }

  /** Every match the scan reports covers text of the pattern's shape. */
  lemma {:induction false} ScanFromValid(s: string, i: nat)
    ensures forall k :: 0 <= k < |ScanFrom(s, i)| ==> ValidSpan(s, ScanFrom(s, i)[k])
    decreases |s| - i
  {
    if i < |s| {
      match MatchAt(s, i)
      case Some(m) =>
        MatchAtValid(s, i);
        ScanFromValid(s, m.end);
      case None =>
        ScanFromValid(s, i + 1);
    }
  }

  /** There is only one leftmost, non-overlapping set of matches. */
  lemma {:induction false} TilingUnique(s: string, i: nat, r1: seq<Span>, r2: seq<Span>)
    requires Tiling(s, i, r1) && Tiling(s, i, r2)
    ensures r1 == r2
    decreases |r1|
  {
    if |r1| > 0 && |r2| > 0 {
      MatchNotInGap(s, i, r2[0].start, r1[0].start);
      MatchNotInGap(s, i, r1[0].start, r2[0].start);
      TilingUnique(s, r1[0].end, r1[1..], r2[1..]);
      assert r1 == [r1[0]] + r1[1..];
      assert r2 == [r2[0]] + r2[1..];
    } else if |r1| > 0 {
      MatchNotInGap(s, i, |s|, r1[0].start);
    } else if |r2| > 0 {
      MatchNotInGap(s, i, |s|, r2[0].start);
    }
  }

  /** A position where the pattern matches lies outside every gap. */
  lemma MatchNotInGap(s: string, lo: nat, hi: nat, p: nat)
    requires NoMatchIn(s, lo, hi) && lo <= p && MatchAt(s, p).Some?
    ensures hi <= p
  {
  }

  function PairOf(s: string, m: Span): Pair
    requires Placed(s, m)
  {
    Pair(s[m.start..m.comma], s[m.comma + 1..m.end])
  }

  /** The captured pairs of a list of match spans. */
  function PairsOf(s: string, spans: seq<Span>): (r: seq<Pair>)
    requires forall k :: 0 <= k < |spans| ==> Placed(s, spans[k])
    ensures |r| == |spans|
  {
    seq(|spans|, k requires 0 <= k < |spans| => PairOf(s, spans[k]))
  }

  /** `re.findall(r'(-?\d+\.\d+),(-?\d+\.\d+)', s)` (kmlToSql.py line 92). */
  function Scan(s: string): seq<Pair> {
    PairsOf(s, ScanFrom(s, 0))
  }

  /** Every pair found is two decimal numbers. */
  lemma ScanPairsAreDecimals(s: string)
    ensures forall k :: 0 <= k < |Scan(s)| ==> IsDecimal(Scan(s)[k].first) && IsDecimal(Scan(s)[k].second)
  {
    ScanFromValid(s, 0);
  }

  /** Every pair found is the text on either side of a `,` where the search found it. */
  lemma ScanPairsInText(s: string, k: nat)
    requires k < |Scan(s)|
    ensures var m := ScanFrom(s, 0)[k];
      s[m.start..m.end] == Scan(s)[k].first + "," + Scan(s)[k].second
  {
    var m := ScanFrom(s, 0)[k];
    assert Scan(s)[k] == PairOf(s, m);
    assert s[m.start..m.end] == s[m.start..m.comma] + [s[m.comma]] + s[m.comma + 1..m.end];
  }

  /** The scan finds nothing exactly when no substring has the pattern's shape. */
  lemma ScanEmptyIff(s: string)
    ensures Scan(s) == [] <==> forall p, q :: 0 <= p <= q <= |s| ==> !IsPairText(s[p..q])
  {
    var spans := ScanFrom(s, 0);
    ScanFromIsTiling(s, 0);
    if |spans| > 0 {
      MatchIsPairText(s, spans[0].start);
    }
    if exists p, q :: 0 <= p <= q <= |s| && IsPairText(s[p..q]) {
      var p, q :| 0 <= p <= q <= |s| && IsPairText(s[p..q]);
      PairTextMatches(s, p, q);
      if |spans| == 0 {
        assert NoMatchIn(s, 0, |s|);
        assert MatchAt(s, p).None?;
      }
    }
  }

  /** Text without a decimal point (`10,20`) yields no pairs. */
  lemma NoDotNoPairs(s: string)
    requires forall k :: 0 <= k < |s| ==> s[k] != '.'
    ensures Scan(s) == []
  {
    var spans := ScanFrom(s, 0);
    if |spans| > 0 {
      var m := spans[0];
      ScanFromValid(s, 0);
      DecimalHasDot(s[m.start..m.comma]);
    }
  }

  // ---------------------------------------------------------------------
  // A worked example: digits of another script
  // ---------------------------------------------------------------------

  /** `1.0,2.0` written with FULLWIDTH digits (U+FF10-U+FF19). */
  const WideSample: string := "\U{FF11}.\U{FF10},\U{FF12}.\U{FF10}"

  lemma WideNumbers()
    ensures NumberEnd(WideSample, 0) == Some(3)
    ensures NumberEnd(WideSample, 4) == Some(7)
  {
    assert NumberEnd(WideSample, 0) == Some(3) by {
      NumberEndUnfold(WideSample, 0);
      assert DigitRun(WideSample, 0) == 1;
      assert DigitRun(WideSample, 2) == 3;
    }
    assert NumberEnd(WideSample, 4) == Some(7) by {
      NumberEndUnfold(WideSample, 4);
      assert DigitRun(WideSample, 4) == 5;
      assert DigitRun(WideSample, 6) == 7;
    }
  }

  /** Any script's digits are matched: the fullwidth text yields one pair, as `\d` in Python does. */
  lemma WideScan()
    ensures Scan(WideSample) == [Pair("\U{FF11}.\U{FF10}", "\U{FF12}.\U{FF10}")]
  {
    assert MatchAt(WideSample, 0) == Some(Span(0, 3, 7)) by {
      MatchAtUnfold(WideSample, 0);
      WideNumbers();
    }
    ScanFromTake(WideSample, 0);
    assert WideSample[0..3] == "\U{FF11}.\U{FF10}";
    assert WideSample[4..7] == "\U{FF12}.\U{FF10}";
  }

  // ---------------------------------------------------------------------
  // A worked example: a longitude,latitude pair as KML writes it
  // ---------------------------------------------------------------------

  const Sample: string := "-38.5,-7.2"

  lemma SampleNumbers()
    ensures NumberEnd(Sample, 0) == Some(5)
    ensures NumberEnd(Sample, 6) == Some(10)
  {
    NumberEndUnfold(Sample, 0);
    assert DigitRun(Sample, 1) == 3;
    assert DigitRun(Sample, 4) == 5;
    NumberEndUnfold(Sample, 6);
    assert DigitRun(Sample, 7) == 8;
    assert DigitRun(Sample, 9) == 10;
  }

  lemma SampleMatch()
    ensures MatchAt(Sample, 0) == Some(Span(0, 5, 10))
  {
    MatchAtUnfold(Sample, 0);
    SampleNumbers();
  }

  /** The scan of `-38.5,-7.2` captures `-38.5` first and `-7.2` second. */
  lemma SampleScan()
    ensures Scan(Sample) == [Pair("-38.5", "-7.2")]
  {
    SampleMatch();
    ScanFromTake(Sample, 0);
    assert Sample[0..5] == "-38.5";
    assert Sample[6..10] == "-7.2";
  }
}

=== FILE: options.dfy ===
/** Optional values: Python's `None` versus a present value. */
module Options {

  datatype Option<+T> = None | Some(value: T) {

    /** The value when present, otherwise `default`. */
    function GetOr(default: T): T {
      match this
      case Some(v) => v
      case None => default
    }
  }
}

=== FILE: placemarks.dfy ===
/**
 * `_process_placemarks` (kmlToSql.py lines 48-109): the placemarks of a
 * KML document, in document order, become SQL statement lines.
 *
 * The XML tree is abstracted to what the loop looks up in each placemark:
 * the first `SimpleData name="layer"` element below it (lines 71 and 80 run
 * the same query, so the name and the layer are one lookup here) and the
 * first `coordinates` element below it, each with its optional text.
 */
module Placemarks {
  import opened Options
  import opened Text
  import opened Coordinates
  import opened Whitespace
  import opened Sql

  /** An element as the loop reads it: ElementTree leaves `text` as `None` for an empty element. */
  datatype Element = Element(text: Option<string>)

  datatype Placemark = Placemark(layer: Option<Element>, coordinates: Option<Element>)

  /** The layer as an f-string renders it: a missing text prints as `None`. */
  function LayerText(e: Element): string {
    e.text.GetOr("None")
  }

  /**
   * One `coordenada` insert per pair, in order: the second capture is the
   * latitude and the first the longitude.
   */
  function CoordStatements(layer: string, pairs: seq<Pair>): (r: seq<Statement>)
    ensures |r| == |pairs|
    ensures forall k :: 0 <= k < |r| ==> r[k] == Coordenada(CoordRow(pairs[k].second, pairs[k].first, layer))
  {
    if |pairs| == 0 then []
    else [Coordenada(CoordRow(pairs[0].second, pairs[0].first, layer))] + CoordStatements(layer, pairs[1..])
  }

  /** Lines 91-103: the `zona` insert, then the inserts for the pairs found in the stripped text. */
  function PlacemarkStatements(layer: string, text: string): seq<Statement> {
    [Zona(layer)] + CoordStatements(layer, Scan(Strip(text)))
  }

  /** What one pass of the loop body does with a placemark. */
  datatype Step =
    | Skipped                      // `continue` at line 77, or no coordinates (line 107)
    | Emitted(layer: string, text: string)  // lines 94-105
    | Raised                       // `None.strip()` at line 91

  function StepOf(p: Placemark): Step {
    match p.layer
    case None => Skipped
    case Some(l) =>
      match p.coordinates
      case None => Skipped
      case Some(c) =>
        match c.text
        case None => Raised
        case Some(t) => Emitted(LayerText(l), t)
  }

  /**
   * The result of running the loop over some placemarks: the lines written
   * and how many placemarks reached emission, or the lines written before
   * an exception left the loop.
   */
  datatype Run = Completed(lines: seq<Statement>, processed: nat) | Aborted(lines: seq<Statement>)

  /** Running one stretch of placemarks after another. */
  function Then(a: Run, b: Run): Run {
    match a
    case Aborted(_) => a
    case Completed(l1, n1) =>
      match b
      case Completed(l2, n2) => Completed(l1 + l2, n1 + n2)
      case Aborted(l2) => Aborted(l1 + l2)
  }

  function StepRun(p: Placemark): Run {
    match StepOf(p)
    case Skipped => Completed([], 0)
    case Emitted(layer, text) => Completed(PlacemarkStatements(layer, text), 1)
    case Raised => Aborted([])
  }

  /** The loop of lines 67-107 over all placemarks. */
  function Process(ps: seq<Placemark>): Run {
    if |ps| == 0 then Completed([], 0) else Then(StepRun(ps[0]), Process(ps[1..]))
  }

  lemma ThenAssociative(a: Run, b: Run, c: Run)
    ensures Then(Then(a, b), c) == Then(a, Then(b, c))
  {
    match a
    case Aborted(_) =>
    case Completed(l1, n1) =>
      match b
      case Aborted(_) =>
      case Completed(l2, n2) =>
        match c
        case Aborted(l3) => assert l1 + l2 + l3 == l1 + (l2 + l3);
        case Completed(l3, n3) => assert l1 + l2 + l3 == l1 + (l2 + l3);
  }

  lemma ThenUnit(a: Run)
    ensures Then(a, Completed([], 0)) == a
  {
    match a
    case Aborted(_) =>
    case Completed(l, n) => assert l + [] == l;
  }

  /** Processing a document in two parts is processing the first, then the second. */
  lemma {:induction false} ProcessAppend(ps: seq<Placemark>, qs: seq<Placemark>)
    ensures Process(ps + qs) == Then(Process(ps), Process(qs))
    decreases |ps|
  {
    if |ps| == 0 {
      assert ps + qs == qs;
    } else {
      assert (ps + qs)[0] == ps[0];
      assert (ps + qs)[1..] == ps[1..] + qs;
      ProcessAppend(ps[1..], qs);
      ThenAssociative(StepRun(ps[0]), Process(ps[1..]), Process(qs));
    }
  }

  /**
   * The loop as written: statements are appended to the output as they are
   * produced, and the exception from line 91 ends the loop at once. It
   * reports what was written, whether it raised, and otherwise the result
   * of line 109.
   */
  method ProcessPlacemarks(ps: seq<Placemark>) returns (written: seq<Statement>, raised: bool, anyProcessed: bool)
    ensures raised <==> Process(ps).Aborted?
    ensures written == Process(ps).lines
    ensures !raised ==> (anyProcessed <==> Process(ps).processed > 0)
  {
    written := [];
    var count: nat := 0;
    var k := 0;
    while k < |ps|
      invariant 0 <= k <= |ps|
      invariant Then(Completed(written, count), Process(ps[k..])) == Process(ps)
    {
      assert Process(ps[k..]) == Then(StepRun(ps[k]), Process(ps[k + 1..])) by {
        assert ps[k..][0] == ps[k];
        assert ps[k..][1..] == ps[k + 1..];
      }
      ThenAssociative(Completed(written, count), StepRun(ps[k]), Process(ps[k + 1..]));
      match StepOf(ps[k]) {
        case Skipped =>
          assert Then(Completed(written, count), StepRun(ps[k])) == Completed(written, count) by {
            assert written + [] == written;
          }
        case Raised =>
          assert Process(ps) == Aborted(written) by {
            assert written + [] == written;
          }
          return written, true, false;
        case Emitted(layer, text) =>
          written := written + PlacemarkStatements(layer, text);
          count := count + 1;
      }
      k := k + 1;
    }
    assert ps[k..] == [];
    ThenUnit(Completed(written, count));
    raised := false;
    anyProcessed := count > 0;
  }

  // ---------------------------------------------------------------------
  // What a single placemark produces
  // ---------------------------------------------------------------------

  /** Lines 71-77 and 89, 106-107: without a layer or without coordinates a placemark adds nothing. */
  lemma SkippedIff(p: Placemark)
    ensures StepOf(p) == Skipped <==> p.layer.None? || p.coordinates.None?
    ensures StepOf(p) == Skipped ==> StepRun(p) == Completed([], 0)
  {
  }

  /** Line 91: a `coordinates` element without text raises. */
  lemma RaisedIff(p: Placemark)
    ensures StepOf(p) == Raised <==> p.layer.Some? && p.coordinates.Some? && p.coordinates.value.text.None?
  {
  }

  /**
   * Lines 94-105: a placemark with a layer and coordinate text emits one
   * `zona` insert for its layer, then one `coordenada` insert per pair the
   * scan finds, in text order, each with the pair's captures swapped.
   */
  lemma EmittedStatements(layer: string, text: string)
    ensures var out := PlacemarkStatements(layer, text);
      var pairs := Scan(Strip(text));
      && |out| == 1 + |pairs|
      && out[0] == Zona(layer)
      && forall k :: 0 <= k < |pairs| ==> out[k + 1] == Coordenada(CoordRow(pairs[k].second, pairs[k].first, layer))
  {
    var out := PlacemarkStatements(layer, text);
    var coords := CoordStatements(layer, Scan(Strip(text)));
    assert out[1..] == coords;
  }

  /** Every line a placemark emits reads back as the statement it renders. */
  lemma EmittedDecode(layer: string, text: string, k: nat)
    requires k < |PlacemarkStatements(layer, text)|
    ensures var st := PlacemarkStatements(layer, text)[k];
      Decode(Render(st)) == Some(st)
  {
    var out := PlacemarkStatements(layer, text);
    if k > 0 {
      var pairs := Scan(Strip(text));
      assert out[k] == CoordStatements(layer, pairs)[k - 1];
      ScanPairsAreDecimals(Strip(text));
      DecimalHasNoComma(pairs[k - 1].first);
      DecimalHasNoComma(pairs[k - 1].second);
    }
    RenderRoundTrip(out[k]);
  }

  /** The numbers in every statement a placemark emits are comma-free decimals. */
  lemma EmittedRenderable(layer: string, text: string)
    ensures forall k :: 0 <= k < |PlacemarkStatements(layer, text)| ==> Renderable(PlacemarkStatements(layer, text)[k])
  {
    var out := PlacemarkStatements(layer, text);
    var pairs := Scan(Strip(text));
    ScanPairsAreDecimals(Strip(text));
    forall k | 0 < k < |out|
      ensures Renderable(out[k])
    {
      assert out[k] == CoordStatements(layer, pairs)[k - 1];
      DecimalHasNoComma(pairs[k - 1].first);
      DecimalHasNoComma(pairs[k - 1].second);
    }
  }

  /** A placemark whose coordinate text holds no pair still emits its `zona` insert and counts. */
  lemma EmptyCoordinatesStillCount(l: Element, c: string)
    requires Scan(Strip(c)) == []
    ensures StepRun(Placemark(Some(l), Some(Element(Some(c))))) == Completed([Zona(LayerText(l))], 1)
  {
  }

  /** Coordinate text holding a single pair gives the `zona` insert and one `coordenada` insert. */
  lemma OnePairStatements(layer: string, text: string, pair: Pair)
    requires Scan(Strip(text)) == [pair]
    ensures PlacemarkStatements(layer, text) == [Zona(layer), Coordenada(CoordRow(pair.second, pair.first, layer))]
  {
    assert [pair][1..] == [];
  }

  /**
   * A placemark with coordinate text `-38.5,-7.2` writes `-7.2` as the
   * latitude and `-38.5` as the longitude.
   */
  lemma SampleStatements(layer: string)
    ensures StepRun(Placemark(Some(Element(Some(layer))), Some(Element(Some(Sample)))))
         == Completed([Zona(layer), Coordenada(CoordRow("-7.2", "-38.5", layer))], 1)
  {
    SampleScan();
    ScanIgnoresStrip(Sample);
    OnePairStatements(layer, Sample, Pair("-38.5", "-7.2"));
    EmittedRun(layer, Sample);
  }

  /** A placemark with a layer and coordinate text writes its statements and counts once. */
  lemma EmittedRun(layer: string, text: string)
    ensures StepRun(Placemark(Some(Element(Some(layer))), Some(Element(Some(text)))))
         == Completed(PlacemarkStatements(layer, text), 1)
  {
  }

  // ---------------------------------------------------------------------
  // The whole loop
  // ---------------------------------------------------------------------

  predicate NoneRaise(ps: seq<Placemark>) {
    forall k :: 0 <= k < |ps| ==> StepOf(ps[k]) != Raised
  }

  /** The loop finishes exactly when no placemark with a layer has a text-less `coordinates` element. */
  lemma {:induction false} CompletedIff(ps: seq<Placemark>)
    ensures Process(ps).Completed? <==> NoneRaise(ps)
    decreases |ps|
  {
    if |ps| > 0 {
      CompletedIff(ps[1..]);
      NoneRaiseCons(ps);
    }
  }

  lemma NoneRaiseCons(ps: seq<Placemark>)
    requires |ps| > 0
    ensures NoneRaise(ps) <==> StepOf(ps[0]) != Raised && NoneRaise(ps[1..])
  {
    if NoneRaise(ps) {
      forall j | 0 <= j < |ps[1..]|
        ensures StepOf(ps[1..][j]) != Raised
      {
        assert ps[1..][j] == ps[j + 1];
      }
    }
    if StepOf(ps[0]) != Raised && NoneRaise(ps[1..]) {
      forall k | 0 < k < |ps|
        ensures StepOf(ps[k]) != Raised
      {
        assert ps[k] == ps[1..][k - 1];
      }
    }
  }

  predicate SomeEmitted(ps: seq<Placemark>) {
    exists k :: 0 <= k < |ps| && StepOf(ps[k]).Emitted?
  }

  lemma SomeEmittedCons(ps: seq<Placemark>)
    requires |ps| > 0
    ensures SomeEmitted(ps) <==> StepOf(ps[0]).Emitted? || SomeEmitted(ps[1..])
  {
    if SomeEmitted(ps[1..]) {
      var k :| 0 <= k < |ps[1..]| && StepOf(ps[1..][k]).Emitted?;
      assert StepOf(ps[k + 1]).Emitted?;
    }
    if SomeEmitted(ps) {
      var k :| 0 <= k < |ps| && StepOf(ps[k]).Emitted?;
      if k > 0 {
        assert StepOf(ps[1..][k - 1]).Emitted?;
      }
    }
  }

  /** Two stretches finish exactly when both do, and their counts add up. */
  lemma ThenCompleted(a: Run, b: Run)
    ensures Then(a, b).Completed? <==> a.Completed? && b.Completed?
    ensures Then(a, b).Completed? ==> Then(a, b).processed == a.processed + b.processed
  {
  }

  /** Line 109: the loop reports success exactly when some placemark reached emission. */
  lemma {:induction false} ProcessedIff(ps: seq<Placemark>)
    requires Process(ps).Completed?
    ensures Process(ps).processed <= |ps|
    ensures Process(ps).processed > 0 <==> SomeEmitted(ps)
    decreases |ps|
  {
    if |ps| > 0 {
      ThenCompleted(StepRun(ps[0]), Process(ps[1..]));
      ProcessedIff(ps[1..]);
      SomeEmittedCons(ps);
      assert StepRun(ps[0]).processed == if StepOf(ps[0]).Emitted? then 1 else 0;
    }
  }

  lemma ThenLines(a: Run, b: Run)
    ensures Then(a, b).lines == if a.Completed? then a.lines + b.lines else a.lines
  {
  }

  lemma StepRenderable(p: Placemark)
    ensures forall k :: 0 <= k < |StepRun(p).lines| ==> Renderable(StepRun(p).lines[k])
  {
    if StepOf(p).Emitted? {
      EmittedRenderable(StepOf(p).layer, StepOf(p).text);
    }
  }

  /** Everything the loop writes, finished or not, reads back from its rendered line. */
  lemma {:induction false} ProcessRenderable(ps: seq<Placemark>)
    ensures forall k :: 0 <= k < |Process(ps).lines| ==> Renderable(Process(ps).lines[k])
    decreases |ps|
  {
    if |ps| > 0 {
      var head, rest := StepRun(ps[0]), Process(ps[1..]);
      ProcessRenderable(ps[1..]);
      StepRenderable(ps[0]);
      ThenLines(head, rest);
      var lines := Process(ps).lines;
      assert lines == if head.Completed? then head.lines + rest.lines else head.lines;
      forall k | 0 <= k < |lines|
        ensures Renderable(lines[k])
      {
        if k >= |head.lines| {
          assert lines[k] == rest.lines[k - |head.lines|];
        } else {
          assert lines[k] == head.lines[k];
        }
      }
    }
  }

  /** Each line the loop writes, finished or not, decodes to its statement. */
  lemma ProcessDecodes(ps: seq<Placemark>, k: nat)
    requires k < |Process(ps).lines|
    ensures Decode(Render(Process(ps).lines[k])) == Some(Process(ps).lines[k])
  {
    ProcessRenderable(ps);
    RenderRoundTrip(Process(ps).lines[k]);
  }

  lemma ThenRaised(a: Run)
    requires a.Completed?
    ensures Then(a, Aborted([])) == Aborted(a.lines)
  {
    assert a.lines + [] == a.lines;
  }

  lemma RaisedRun(p: Placemark)
    requires StepOf(p) == Raised
    ensures StepRun(p) == Aborted([])
  {
  }

  /**
   * Lines 44-46: when placemark `k` raises, what was written is exactly
   * the output of the placemarks before it.
   */
  lemma AbortedAt(ps: seq<Placemark>, k: nat)
    requires k < |ps| && StepOf(ps[k]) == Raised && NoneRaise(ps[..k])
    ensures Process(ps) == Aborted(Process(ps[..k]).lines)
  {
    var before := Process(ps[..k]);
    assert before.Completed? by {
      CompletedIff(ps[..k]);
    }
    assert Process(ps[k..]) == Aborted([]) by {
      assert ps[k..][0] == ps[k];
      RaisedRun(ps[k]);
    }
    assert Process(ps) == Then(before, Process(ps[k..])) by {
      assert ps == ps[..k] + ps[k..];
      ProcessAppend(ps[..k], ps[k..]);
    }
    ThenRaised(before);
  }
}

=== FILE: seqs.dfy ===
/**
 * Sequence helpers: filtering, and Python's `sorted` on lists of strings,
 * which orders them lexicographically by code point.
 */
module Seqs {

  /** The elements of `s` that satisfy `keep`, in their original order. */
  function Filter<T>(s: seq<T>, keep: T -> bool): (r: seq<T>)
    ensures |r| <= |s|
    ensures forall k :: 0 <= k < |r| ==> keep(r[k]) && r[k] in s
    ensures forall x :: x in s && keep(x) ==> x in r
  {
    if |s| == 0 then []
    else if keep(s[0]) then [s[0]] + Filter(s[1..], keep)
    else Filter(s[1..], keep)
  }

  /** Filtering keeps exactly as many copies of each kept element. */
  lemma {:induction false} FilterMultiset<T>(s: seq<T>, keep: T -> bool, x: T)
    ensures multiset(Filter(s, keep))[x] == if keep(x) then multiset(s)[x] else 0
  {
    if |s| > 0 {
      FilterMultiset(s[1..], keep, x);
      assert s == [s[0]] + s[1..];
    }
  }

  /** `a <= b` on Python strings: lexicographic comparison by code point. */
  predicate Below(a: string, b: string) {
    |a| == 0 || (|b| > 0 && (a[0] < b[0] || (a[0] == b[0] && Below(a[1..], b[1..]))))
  }

  lemma {:induction false} BelowReflexive(a: string)
    ensures Below(a, a)
  {
    if |a| > 0 {
      BelowReflexive(a[1..]);
    }
  }

  lemma {:induction false} BelowTotal(a: string, b: string)
    ensures Below(a, b) || Below(b, a)
  {
    if |a| > 0 && |b| > 0 && a[0] == b[0] {
      BelowTotal(a[1..], b[1..]);
    }
  }

  lemma {:induction false} BelowTransitive(a: string, b: string, c: string)
    requires Below(a, b) && Below(b, c)
    ensures Below(a, c)
  {
    if |a| > 0 && a[0] == b[0] && b[0] == c[0] {
      BelowTransitive(a[1..], b[1..], c[1..]);
    }
  }

  /** Two strings below each other are the same string. */
  lemma {:induction false} BelowAntisymmetric(a: string, b: string)
    requires Below(a, b) && Below(b, a)
    ensures a == b
  {
    if |a| > 0 {
      BelowAntisymmetric(a[1..], b[1..]);
      assert a == [a[0]] + a[1..];
      assert b == [b[0]] + b[1..];
    }
  }

  predicate Sorted(s: seq<string>) {
    forall i, j :: 0 <= i < j < |s| ==> Below(s[i], s[j])
  }

  /** Places `x` into sorted `s` just before the first element it is below. */
  function Insert(x: string, s: seq<string>): (r: seq<string>)
    requires Sorted(s)
    ensures Sorted(r)
    ensures multiset(r) == multiset(s) + multiset{x}
  {
    if |s| == 0 then [x]
    else if Below(x, s[0]) then
      SortedCons(x, s);
      [x] + s
    else
      var rest := Insert(x, s[1..]);
      BelowTotal(x, s[0]);
      assert s == [s[0]] + s[1..];
      BelowAll(s[0], s[1..] + [x], rest);
      SortedCons(s[0], rest);
      [s[0]] + rest
  }

  /** A string below every element of a sorted sequence heads it. */
  lemma SortedCons(h: string, s: seq<string>)
    requires Sorted(s)
    requires |s| > 0 ==> Below(h, s[0])
    ensures Sorted([h] + s)
  {
    forall j | 0 <= j < |s|
      ensures Below(h, s[j])
    {
      if j > 0 { BelowTransitive(h, s[0], s[j]); }
    }
    var r := [h] + s;
    forall i, j | 0 <= i < j < |r|
      ensures Below(r[i], r[j])
    {
      if i > 0 {
        assert r[i] == s[i - 1] && r[j] == s[j - 1];
      } else {
        assert r[j] == s[j - 1];
      }
    }
  }

  /** Being below every element depends only on the multiset of elements. */
  lemma BelowAll(h: string, xs: seq<string>, ys: seq<string>)
    requires multiset(ys) == multiset(xs)
    requires forall j :: 0 <= j < |xs| ==> Below(h, xs[j])
    ensures forall j :: 0 <= j < |ys| ==> Below(h, ys[j])
  {
    forall j | 0 <= j < |ys|
      ensures Below(h, ys[j])
    {
      assert ys[j] in multiset(xs);
    }
  }

  /** Python's `sorted(s)` for a list of strings (insertion sort). */
  function Sort(s: seq<string>): (r: seq<string>)
    ensures Sorted(r)
    ensures multiset(r) == multiset(s)
  {
    if |s| == 0 then []
    else
      assert s == [s[0]] + s[1..];
      Insert(s[0], Sort(s[1..]))
  }

  /** Filtering a sorted sequence keeps it sorted. */
  lemma {:induction false} FilterSorted(s: seq<string>, keep: string -> bool)
    requires Sorted(s)
    ensures Sorted(Filter(s, keep))
  {
    if |s| > 0 {
      FilterSorted(s[1..], keep);
      var rest := Filter(s[1..], keep);
      forall j | 0 <= j < |rest|
        ensures Below(s[0], rest[j])
      {
        var k :| 0 <= k < |s[1..]| && s[1..][k] == rest[j];
        assert s[k + 1] == rest[j];
      }
    }
  }

  /** Two sorted sequences with the same elements start with the same element. */
  lemma SortedHeads(t: seq<string>, r: seq<string>)
    requires Sorted(t) && Sorted(r) && multiset(t) == multiset(r)
    requires |t| > 0 && |r| > 0
    ensures t[0] == r[0]
  {
    assert r[0] in multiset(t) && t[0] in multiset(r);
    var i :| 0 <= i < |t| && t[i] == r[0];
    var j :| 0 <= j < |r| && r[j] == t[0];
    assert Below(t[0], r[0]) by {
      if i > 0 { assert Below(t[0], t[i]); } else { BelowReflexive(t[0]); }
    }
    assert Below(r[0], t[0]) by {
      if j > 0 { assert Below(r[0], r[j]); } else { BelowReflexive(r[0]); }
    }
    BelowAntisymmetric(t[0], r[0]);
  }

  /** Two sorted sequences with the same elements are equal. */
  lemma {:induction false} SortedPermutationsEqual(t: seq<string>, r: seq<string>)
    requires Sorted(t) && Sorted(r) && multiset(t) == multiset(r)
    ensures t == r
    decreases |t|
  {
    assert |t| == |multiset(t)| == |multiset(r)| == |r|;
    if |t| > 0 {
      SortedHeads(t, r);
      assert t == [t[0]] + t[1..];
      assert r == [r[0]] + r[1..];
      assert multiset(t) == multiset{t[0]} + multiset(t[1..]);
      assert multiset(r) == multiset{r[0]} + multiset(r[1..]);
      assert multiset(t[1..]) == multiset(t) - multiset{t[0]};
      assert multiset(r[1..]) == multiset(r) - multiset{r[0]};
      SortedPermutationsEqual(t[1..], r[1..]);
    }
  }

  /**
   * A sorted permutation is unique: any sorted sequence with the same
   * elements as `s` is `Sort(s)`.
   */
  lemma SortUnique(s: seq<string>, t: seq<string>)
    requires Sorted(t) && multiset(t) == multiset(s)
    ensures t == Sort(s)
  {
    SortedPermutationsEqual(t, Sort(s));
  }
}

=== FILE: sql.dfy ===
/**
 * The two SQL statements `kmlToSql.py` writes for a placemark (lines
 * 95-97 and 102-103), and decoders that read each statement back. The
 * decoders are the partners of the emitters: they show where the layer
 * text and the two captured numbers land in each statement.
 */
module Sql {
  import opened Options
  import opened Text

  // The fixed text around the spliced values, exactly as the f-strings have it.

  const InsertInto: string := "INSERT INTO "

  const ZonaHead: string :=
    InsertInto + "zona "
    + "(custofixo, custoporentrega, nome, restrita, utilizaexpediente, utilizapernoite, agrupavel, tipo_solucao, sequencia, tipo_zona) "
    + "SELECT 0, 0, '"
  const ZonaMid: string :=
    "', 'true', 'false', 'false', 'false', 'TODAS', 99999, 'SIMULACAO' WHERE NOT EXISTS "
    + "(SELECT 1 FROM zona WHERE nome = '"
  const ZonaTail: string := "');\n"

  const CoordHead: string := InsertInto + "coordenada" + "(latitude, longitude, id_zona) VALUES("
  const CoordSep: string := ", "
  const CoordMid: string := ", " + "(SELECT id FROM zona WHERE nome = '"
  const CoordTail: string := "'));\n"

  /** Text without a `,`, as every captured decimal number is. */
  predicate CommaFree(t: string) {
    forall k :: 0 <= k < |t| ==> t[k] != ','
  }

  /**
   * The guarded `zona` insert: the layer text is spliced in verbatim, as
   * the inserted `nome` and again in the `WHERE NOT EXISTS` guard.
   */
  function ZonaInsert(layer: string): (r: string)
    ensures EndsWith(r, ";\n")
  {
    var r := ZonaHead + (layer + ZonaMid + layer) + ZonaTail;
    assert r[|r| - 2..] == ZonaTail[2..];
    r
  }

  /**
   * The `coordenada` insert for one captured pair: the second capture is
   * written as `latitude`, the first as `longitude`.
   */
  function CoordInsert(layer: string, latitude: string, longitude: string): (r: string)
    ensures EndsWith(r, ";\n")
  {
    var r := CoordHead + (latitude + CoordSep + (longitude + CoordMid + layer)) + CoordTail;
    assert r[|r| - 2..] == CoordTail[3..];
    r
  }

  /** The values one `coordenada` insert carries. */
  datatype CoordRow = CoordRow(latitude: string, longitude: string, zone: string)

  /** `x` when `body` is `x + mid + x`. */
  function Twice(body: string, mid: string): (r: Option<string>)
    ensures r.Some? ==> 2 * |r.value| + |mid| == |body|
  {
    if |body| < |mid| || (|body| - |mid|) % 2 != 0 then None
    else
      var x := body[..(|body| - |mid|) / 2];
      if body == x + mid + x then Some(x) else None
  }

  lemma TwiceRoundTrip(x: string, mid: string)
    ensures Twice(x + mid + x, mid) == Some(x)
  {
    var body := x + mid + x;
    assert (|body| - |mid|) / 2 == |x|;
    assert body[..|x|] == x;
  }

  /** The layer of a `zona` insert, or `None` when `line` is not one. */
  function DecodeZona(line: string): Option<string> {
    match Unwrap(line, ZonaHead, ZonaTail)
    case None => None
    case Some(body) => Twice(body, ZonaMid)
  }

  /** The values of a `coordenada` insert, or `None` when `line` is not one. */
  function DecodeCoord(line: string): (r: Option<CoordRow>)
    ensures r.Some? ==> CommaFree(r.value.latitude) && CommaFree(r.value.longitude)
  {
    assert CoordSep[0] == ',' && CoordMid[0] == ',';
    match Unwrap(line, CoordHead, CoordTail)
    case None => None
    case Some(body) =>
      match CutAt(body, CoordSep)
      case None => None
      case Some((latitude, rest)) =>
        match CutAt(rest, CoordMid)
        case None => None
        case Some((longitude, zone)) => Some(CoordRow(latitude, longitude, zone))
  }

  /** A `zona` insert reads back as its layer, whatever the layer text is. */
  lemma ZonaRoundTrip(layer: string)
    ensures DecodeZona(ZonaInsert(layer)) == Some(layer)
  {
    UnwrapRoundTrip(ZonaHead, layer + ZonaMid + layer, ZonaTail);
    TwiceRoundTrip(layer, ZonaMid);
  }

  /** Only `zona` inserts decode as one. */
  lemma DecodeZonaSound(line: string)
    requires DecodeZona(line).Some?
    ensures line == ZonaInsert(DecodeZona(line).value)
  {
    UnwrapSound(line, ZonaHead, ZonaTail);
  }

  /**
   * A `coordenada` insert reads back as its values, in the order the
   * statement holds them, for any layer text: the layer comes last.
   */
  lemma CoordRoundTrip(layer: string, latitude: string, longitude: string)
    requires CommaFree(latitude) && CommaFree(longitude)
    ensures DecodeCoord(CoordInsert(layer, latitude, longitude)) == Some(CoordRow(latitude, longitude, layer))
  {
    var rest := longitude + CoordMid + layer;
    UnwrapRoundTrip(CoordHead, latitude + CoordSep + rest, CoordTail);
    assert CoordSep[0] == ',' && CoordMid[0] == ',';
    CutRoundTrip(latitude, CoordSep, rest);
    CutRoundTrip(longitude, CoordMid, layer);
  }

  /** Only `coordenada` inserts decode as one. */
  lemma DecodeCoordSound(line: string)
    requires DecodeCoord(line).Some?
    ensures var row := DecodeCoord(line).value;
      line == CoordInsert(row.zone, row.latitude, row.longitude)
  {
    UnwrapSound(line, CoordHead, CoordTail);
    var body := Unwrap(line, CoordHead, CoordTail).value;
    CutSound(body, CoordSep);
    CutSound(CutAt(body, CoordSep).value.1, CoordMid);
  }

  /** A statement the converter writes, before rendering. */
  datatype Statement = Zona(layer: string) | Coordenada(row: CoordRow)

  /** The line written for a statement. */
  function Render(st: Statement): (r: string)
    ensures EndsWith(r, ";\n")
  {
    match st
    case Zona(layer) => ZonaInsert(layer)
    case Coordenada(row) => CoordInsert(row.zone, row.latitude, row.longitude)
  }

  /** Reads a written line back as the statement it renders, if any. */
  function Decode(line: string): Option<Statement> {
    match DecodeZona(line)
    case Some(layer) => Some(Zona(layer))
    case None =>
      match DecodeCoord(line)
      case Some(row) => Some(Coordenada(row))
      case None => None
  }

  /** The numbers of a row carry no comma, as every captured decimal does. */
  predicate Renderable(st: Statement) {
    st.Coordenada? ==> CommaFree(st.row.latitude) && CommaFree(st.row.longitude)
  }

  /** Every line the converter writes reads back as the statement it came from. */
  lemma RenderRoundTrip(st: Statement)
    requires Renderable(st)
    ensures Decode(Render(st)) == Some(st)
  {
    match st
    case Zona(layer) =>
      ZonaRoundTrip(layer);
    case Coordenada(row) =>
      StatementsDistinct(row.zone, row.latitude, row.longitude);
      CoordRoundTrip(row.zone, row.latitude, row.longitude);
  }

  /** Only rendered statements decode, and each line has one reading. */
  lemma DecodeSound(line: string)
    requires Decode(line).Some?
    ensures Render(Decode(line).value) == line
    ensures Renderable(Decode(line).value)
  {
    if DecodeZona(line).Some? {
      DecodeZonaSound(line);
    } else {
      DecodeCoordSound(line);
    }
  }

  /** The two statements never read as each other. */
  lemma StatementsDistinct(layer: string, latitude: string, longitude: string)
    ensures DecodeCoord(ZonaInsert(layer)).None?
    ensures DecodeZona(CoordInsert(layer, latitude, longitude)).None?
  {
    var n := |InsertInto|;
    assert ZonaHead[n] == 'z' && CoordHead[n] == 'c';
    var z := ZonaInsert(layer);
    var c := CoordInsert(layer, latitude, longitude);
    assert z[n] == 'z' && c[n] == 'c';
  }
}

=== FILE: text.dfy ===
/** String helpers shared by the converter and the web front end. */
module Text {
  import opened Options
  import Seqs

  predicate IsDigit(c: char) {
    '0' <= c <= '9'
  }

  predicate StartsWith(s: string, prefix: string) {
    |prefix| <= |s| && s[..|prefix|] == prefix
  }

  /** Python's `s.endswith(suffix)`. */
  predicate EndsWith(s: string, suffix: string) {
    |suffix| <= |s| && s[|s| - |suffix|..] == suffix
  }

  predicate OccursAt(s: string, pat: string, i: nat) {
    i + |pat| <= |s| && s[i..i + |pat|] == pat
  }

  /** Python's `pat in s`. */
  predicate Contains(s: string, pat: string) {
    exists i: nat :: i <= |s| && OccursAt(s, pat, i)
  }

  /** Index of the first `c` in `s`, or `|s|` when there is none. */
  function IndexOf(s: string, c: char): (r: nat)
    ensures r <= |s|
    ensures forall k :: 0 <= k < r ==> s[k] != c
    ensures r < |s| ==> s[r] == c
  {
    if |s| == 0 then 0
    else if s[0] == c then 0
    else 1 + IndexOf(s[1..], c)
  }

  /** `IndexOf` is pinned down by the first occurrence. */
  lemma IndexOfIs(s: string, c: char, k: nat)
    requires k < |s| && s[k] == c
    requires forall j :: 0 <= j < k ==> s[j] != c
    ensures IndexOf(s, c) == k
  {
  }

  /** Python's `s.rfind(c)`: the index of the last `c` in `s`, if there is one. */
  function LastIndexOf(s: string, c: char): (r: Option<nat>)
    ensures r.Some? ==> r.value < |s| && s[r.value] == c && forall k :: r.value < k < |s| ==> s[k] != c
    ensures r.None? ==> forall k :: 0 <= k < |s| ==> s[k] != c
  {
    if |s| == 0 then None
    else if s[|s| - 1] == c then Some(|s| - 1)
    else LastIndexOf(s[..|s| - 1], c)
  }

  /** `LastIndexOf` is pinned down by the last occurrence. */
  lemma LastIndexOfIs(s: string, c: char, k: nat)
    requires k < |s| && s[k] == c
    requires forall j :: k < j < |s| ==> s[j] != c
    ensures LastIndexOf(s, c) == Some(k)
  {
  }

  /** The position of `c` in `a + b` is found inside `b` when `a` lacks it. */
  lemma IndexOfAfter(a: string, b: string, c: char)
    requires forall k :: 0 <= k < |a| ==> a[k] != c
    requires |b| > 0 && b[0] == c
    ensures IndexOf(a + b, c) == |a|
  {
    var r := IndexOf(a + b, c);
    assert (a + b)[|a|] == c;
  }

  /**
   * Python's `s.replace(pat, "")`: scanning left to right, every
   * non-overlapping occurrence of `pat` is dropped.
   */
  function RemoveAll(s: string, pat: string): (r: string)
    requires |pat| > 0
    ensures |r| <= |s|
    decreases |s|
  {
    if |s| < |pat| then s
    else if s[..|pat|] == pat then RemoveAll(s[|pat|..], pat)
    else [s[0]] + RemoveAll(s[1..], pat)
  }

  /** Removing a pattern that does not occur changes nothing. */
  lemma {:induction false} RemoveAllAbsent(s: string, pat: string)
    requires |pat| > 0
    requires !Contains(s, pat)
    ensures RemoveAll(s, pat) == s
    decreases |s|
  {
    if |s| >= |pat| {
      assert !OccursAt(s, pat, 0);
      assert s[..|pat|] != pat;
      if Contains(s[1..], pat) {
        var i: nat :| i <= |s[1..]| && OccursAt(s[1..], pat, i);
        assert s[i + 1..i + 1 + |pat|] == s[1..][i..i + |pat|];
        assert OccursAt(s, pat, i + 1);
        assert false;
      }
      RemoveAllAbsent(s[1..], pat);
      assert [s[0]] + s[1..] == s;
    }
  }

  /** A leading occurrence of the pattern is dropped. */
  lemma RemoveAllLeading(s: string, pat: string)
    requires |pat| > 0
    ensures RemoveAll(pat + s, pat) == RemoveAll(s, pat)
  {
    assert (pat + s)[..|pat|] == pat;
    assert (pat + s)[|pat|..] == s;
  }

  /**
   * An occurrence in `a + b` lies inside `a` when `b` lacks the pattern's
   * last character.
   */
  lemma OccurrenceInside(a: string, b: string, pat: string, i: nat)
    requires |pat| > 0 && OccursAt(a + b, pat, i)
    requires forall k :: 0 <= k < |b| ==> b[k] != pat[|pat| - 1]
    ensures OccursAt(a, pat, i)
  {
    var s := a + b;
    var e := i + |pat| - 1;
    assert s[e] == pat[|pat| - 1];
    assert e < |a|;
    assert a[i..i + |pat|] == s[i..i + |pat|];
  }

  /** A pattern that occurs in `a + pat` only at the end is removed from there and nowhere else. */
  lemma {:induction false} RemoveAllTrailing(a: string, pat: string)
    requires |pat| > 0
    requires forall i :: 0 <= i < |a| ==> !OccursAt(a + pat, pat, i)
    ensures RemoveAll(a + pat, pat) == a
    decreases |a|
  {
    var s := a + pat;
    if |a| == 0 {
      assert s == pat;
      assert s[|pat|..] == [];
    } else {
      assert !OccursAt(s, pat, 0);
      assert s[1..] == a[1..] + pat;
      forall i | 0 <= i < |a[1..]|
        ensures !OccursAt(a[1..] + pat, pat, i)
      {
        assert (a[1..] + pat)[i..i + |pat|] == s[i + 1..i + 1 + |pat|];
        assert !OccursAt(s, pat, i + 1);
      }
      RemoveAllTrailing(a[1..], pat);
      assert [a[0]] + a[1..] == a;
    }
  }

  /** The parts joined in order: Python's `"".join(parts)`. */
  function Concat(parts: seq<string>): string {
    if |parts| == 0 then "" else parts[0] + Concat(parts[1..])
  }

  lemma {:induction false} ConcatAppend(xs: seq<string>, ys: seq<string>)
    ensures Concat(xs + ys) == Concat(xs) + Concat(ys)
    decreases |xs|
  {
    if |xs| == 0 {
      assert xs + ys == ys;
    } else {
      assert (xs + ys)[0] == xs[0];
      assert (xs + ys)[1..] == xs[1..] + ys;
      ConcatAppend(xs[1..], ys);
      assert xs[0] + (Concat(xs[1..]) + Concat(ys)) == (xs[0] + Concat(xs[1..])) + Concat(ys);
    }
  }

  /** `f` applied to every string, in order. */
  function MapStrings(xs: seq<string>, f: string -> string): (r: seq<string>)
    ensures |r| == |xs|
  {
    seq(|xs|, k requires 0 <= k < |xs| => f(xs[k]))
  }

  lemma MapStringsAppend(xs: seq<string>, ys: seq<string>, f: string -> string)
    ensures MapStrings(xs + ys, f) == MapStrings(xs, f) + MapStrings(ys, f)
  {
  }

  /**
   * Joining the images of `xs` under `f` gives the same text as joining
   * those of the elements `keep` selects, when `f` maps every other
   * element to the empty string.
   */
  lemma {:induction false} ConcatKept(xs: seq<string>, f: string -> string, keep: string -> bool)
    requires forall x :: !keep(x) ==> f(x) == ""
    ensures Concat(MapStrings(xs, f)) == Concat(MapStrings(Seqs.Filter(xs, keep), f))
    decreases |xs|
  {
    if |xs| > 0 {
      var rest := Seqs.Filter(xs[1..], keep);
      ConcatKept(xs[1..], f, keep);
      assert xs == [xs[0]] + xs[1..];
      MapStringsCons(xs[0], xs[1..], f);
      if keep(xs[0]) {
        assert Seqs.Filter(xs, keep) == [xs[0]] + rest;
        MapStringsCons(xs[0], rest, f);
      } else {
        assert Seqs.Filter(xs, keep) == rest;
        assert f(xs[0]) + Concat(MapStrings(rest, f)) == Concat(MapStrings(rest, f));
      }
    }
  }

  /** The joined images of `[x] + xs` are the image of `x` followed by those of `xs`. */
  lemma MapStringsCons(x: string, xs: seq<string>, f: string -> string)
    ensures Concat(MapStrings([x] + xs, f)) == f(x) + Concat(MapStrings(xs, f))
  {
    var m := MapStrings([x] + xs, f);
    assert m[0] == f(x);
    assert m[1..] == MapStrings(xs, f);
  }

  function DigitChar(d: nat): (c: char)
    requires d < 10
    ensures IsDigit(c)
  {
    ['0', '1', '2', '3', '4', '5', '6', '7', '8', '9'][d]
  }

  function DigitValue(c: char): (d: nat)
    requires IsDigit(c)
    ensures d < 10 && DigitChar(d) == c
  {
    (c as int - '0' as int) as nat
  }

  /** Python's `str(n)` for a non-negative integer. */
  function NatToString(n: nat): (r: string)
    ensures |r| > 0
    ensures forall k :: 0 <= k < |r| ==> IsDigit(r[k])
    ensures |r| > 1 ==> r[0] != '0'
    decreases n
  {
    if n < 10 then [DigitChar(n)]
    else NatToString(n / 10) + [DigitChar(n % 10)]
  }

  /** Reads a string of decimal digits back as a number. */
  function ParseNat(s: string): nat
    requires forall k :: 0 <= k < |s| ==> IsDigit(s[k])
  {
    if |s| == 0 then 0
    else ParseNat(s[..|s| - 1]) * 10 + DigitValue(s[|s| - 1])
  }

  /** The decimal rendering of a number reads back as that number. */
  lemma {:induction false} NatToStringRoundTrip(n: nat)
    ensures ParseNat(NatToString(n)) == n
    decreases n
  {
    var s := NatToString(n);
    if n < 10 {
      assert s[..0] == [];
    } else {
      NatToStringRoundTrip(n / 10);
      assert s[..|s| - 1] == NatToString(n / 10);
    }
  }

  /** `s` without `head` in front and `tail` behind, when it has both. */
  function Unwrap(s: string, head: string, tail: string): (r: Option<string>)
    ensures r.Some? ==> |head| + |r.value| + |tail| == |s|
  {
    if |head| + |tail| <= |s| && StartsWith(s, head) && EndsWith(s, tail) then
      Some(s[|head|..|s| - |tail|])
    else None
  }

  lemma UnwrapRoundTrip(head: string, body: string, tail: string)
    ensures Unwrap(head + body + tail, head, tail) == Some(body)
  {
    var s := head + body + tail;
    assert s[..|head|] == head;
    assert s[|s| - |tail|..] == tail;
    assert s[|head|..|s| - |tail|] == body;
  }

  lemma UnwrapSound(s: string, head: string, tail: string)
    requires Unwrap(s, head, tail).Some?
    ensures s == head + Unwrap(s, head, tail).value + tail
  {
    assert s == s[..|head|] + s[|head|..|s| - |tail|] + s[|s| - |tail|..];
  }

  /**
   * `s` cut at its first `sep[0]`, into what comes before it and what
   * follows `sep`, when `sep` occurs there.
   */
  function CutAt(s: string, sep: string): (r: Option<(string, string)>)
    requires |sep| > 0
    ensures r.Some? ==> forall k :: 0 <= k < |r.value.0| ==> r.value.0[k] != sep[0]
  {
    var i := IndexOf(s, sep[0]);
    if OccursAt(s, sep, i) then Some((s[..i], s[i + |sep|..])) else None
  }

  lemma CutRoundTrip(a: string, sep: string, b: string)
    requires |sep| > 0
    requires forall k :: 0 <= k < |a| ==> a[k] != sep[0]
    ensures CutAt(a + sep + b, sep) == Some((a, b))
  {
    var s := a + sep + b;
    assert s == a + (sep + b);
    IndexOfAfter(a, sep + b, sep[0]);
    assert s[|a|..|a| + |sep|] == sep;
    assert s[..|a|] == a;
    assert s[|a| + |sep|..] == b;
  }

  lemma CutSound(s: string, sep: string)
    requires |sep| > 0 && CutAt(s, sep).Some?
    ensures s == CutAt(s, sep).value.0 + sep + CutAt(s, sep).value.1
  {
    var i := IndexOf(s, sep[0]);
    assert s == s[..i] + s[i..i + |sep|] + s[i + |sep|..];
  }
}

=== FILE: web.dfy ===
/**
 * The string logic of the web front end, `app.py`: the upload filter
 * `allowed_file` (lines 15, 21-24) and the consolidated SQL file built
 * after a batch upload (lines 137-178). Reading the results folder, the
 * clock and the HTTP layer are parameters or left out.
 */
module Web {
  import opened Options
  import opened Text
  import opened Seqs
  import opened Batch

  // ---------------------------------------------------------------------
  // Upload filter
  // ---------------------------------------------------------------------

  /** Line 15: the one allowed extension. */
  const AllowedExtension: string := "kml"

  /**
   * `str.lower()` on one character, as far as comparing against `kml`
   * needs it: ASCII capitals become small letters and the KELVIN SIGN
   * becomes `k`; every other character that lowers to an ASCII letter is
   * that capital letter itself.
   */
  function LowerChar(c: char): char {
    if 'A' <= c <= 'Z' then (c as int - 'A' as int + 'a' as int) as char
    else if c == '\U{212A}' then 'k'
    else c
  }

  function Lower(s: string): (r: string)
    ensures |r| == |s|
    ensures forall k :: 0 <= k < |s| ==> r[k] == LowerChar(s[k])
  {
    if |s| == 0 then [] else [LowerChar(s[0])] + Lower(s[1..])
  }

  /** Lines 21-24: there is a `.`, and what follows the last one lowers to `kml`. */
  function AllowedFile(filename: string): bool {
    match LastIndexOf(filename, '.')
    case None => false
    case Some(d) => Lower(filename[d + 1..]) == AllowedExtension
  }

  /** A name without a `.` is refused. */
  lemma NoDotRefused(filename: string)
    requires forall k :: 0 <= k < |filename| ==> filename[k] != '.'
    ensures !AllowedFile(filename)
  {
  }

  /**
   * A name is accepted exactly when it ends in a `.` and three characters
   * that lower to `k`, `m`, `l`.
   */
  lemma AllowedFileIff(filename: string)
    ensures AllowedFile(filename) <==>
      var n := |filename|;
      && n >= 4 && filename[n - 4] == '.'
      && LowerChar(filename[n - 3]) == 'k'
      && LowerChar(filename[n - 2]) == 'm'
      && LowerChar(filename[n - 1]) == 'l'
  {
    var n := |filename|;
    match LastIndexOf(filename, '.')
    case None =>
    case Some(d) =>
      var ext := filename[d + 1..];
      if Lower(ext) == AllowedExtension {
        assert |ext| == 3 && d == n - 4;
        assert Lower(ext)[0] == 'k' && Lower(ext)[1] == 'm' && Lower(ext)[2] == 'l';
      }
      if n >= 4 && filename[n - 4] == '.' && LowerChar(filename[n - 3]) == 'k'
        && LowerChar(filename[n - 2]) == 'm' && LowerChar(filename[n - 1]) == 'l' {
        LastIndexOfIs(filename, '.', n - 4);
        assert Lower(ext) == AllowedExtension;
      }
  }

  /** Only the text after the last `.` is compared, in any case. */
  lemma AllowedFileSamples()
    ensures AllowedFile("a.KML") && !AllowedFile("a.kml.txt") && AllowedFile("a.txt.kml")
  {
    assert AllowedFile("a.KML") by { AllowedFileIff("a.KML"); }
    assert !AllowedFile("a.kml.txt") by { AllowedFileIff("a.kml.txt"); }
    assert AllowedFile("a.txt.kml") by { AllowedFileIff("a.txt.kml"); }
  }

  // ---------------------------------------------------------------------
  // Consolidated file
  // ---------------------------------------------------------------------

  /** Line 139. */
  const ConsolidatedName: string := "resultados_kml_consolidado.sql"

  /** Line 152: a result file is merged when it ends in `.sql` and is not the consolidated file. */
  predicate IsResultFile(name: string) {
    EndsWith(name, ".sql") && name != ConsolidatedName
  }

  /** Line 156: the name in the banners, with every `output_inserts_` and then every `.sql` removed. */
  function BannerName(filename: string): string {
    RemoveAll(RemoveAll(filename, "output_inserts_"), ".sql")
  }

  function StartBanner(base: string): string {
    "-- ========== Arquivo: " + base + " ==========\n"
  }

  function EndBanner(base: string): string {
    "-- ========== Fim: " + base + " ==========\n\n"
  }

  /** Lines 161-163: the content, and a line break after it unless it already ends in one. */
  function Terminated(content: string): (r: string)
    ensures EndsWith(r, "\n")
  {
    if EndsWith(content, "\n") then content
    else
      var r := content + "\n";
      assert r[|r| - 1..] == "\n";
      r
  }

  /** Lines 156-165: one result file between its two banners. */
  function Section(filename: string, content: string): string {
    var base := BannerName(filename);
    StartBanner(base) + Terminated(content) + EndBanner(base)
  }

  /** What one listed name adds: its section if it is a result file, nothing otherwise. */
  function Part(read: string -> string, name: string): string {
    if IsResultFile(name) then Section(name, read(name)) else ""
  }

  function PartOf(read: string -> string): string -> string {
    name => Part(read, name)
  }

  /** Lines 151-165 over a listing in the order given, with `read` for the file contents. */
  function Sections(names: seq<string>, read: string -> string): string {
    Concat(MapStrings(names, PartOf(read)))
  }

  const Rule: string := "-- ================================================\n"

  /** Lines 144-148, with the formatted clock reading as a parameter. */
  function Header(processed: nat, timestamp: string): string {
    Rule
    + "-- KML to SQL Converter - Resultados Consolidados\n"
    + "-- Arquivos processados: " + NatToString(processed) + "\n"
    + "-- Data de gera\U{E7}\U{E3}o: " + timestamp + "\n"
    + Rule + "\n"
  }

  /** The JSON answer to a batch upload, without the message text. */
  datatype Response =
    | Consolidated(stats: Stats, downloadUrl: string, file: string)
    | NothingProcessed(stats: Stats)

  /**
   * Lines 137-178: with at least one success the consolidated file is the
   * header followed by the sections of the result files in sorted name
   * order; otherwise the answer is a failure carrying the statistics.
   */
  function Respond(stats: Stats, listing: seq<string>, read: string -> string, timestamp: string): Response {
    if stats.success > 0 then
      Consolidated(stats, "/download/" + ConsolidatedName, Header(stats.success, timestamp) + Sections(Sort(listing), read))
    else NothingProcessed(stats)
  }

  /** A consolidated file is produced exactly when some file succeeded, and the statistics always come back. */
  lemma RespondIff(stats: Stats, listing: seq<string>, read: string -> string, timestamp: string)
    ensures Respond(stats, listing, read, timestamp).Consolidated? <==> stats.success > 0
    ensures Respond(stats, listing, read, timestamp).stats == stats
  {
  }

  /**
   * A terminated content is the content, plus one line break exactly when
   * it lacked one; terminating twice changes nothing.
   */
  lemma TerminatedProps(content: string)
    ensures StartsWith(Terminated(content), content)
    ensures Terminated(content) == content <==> EndsWith(content, "\n")
    ensures |Terminated(content)| <= |content| + 1
    ensures Terminated(Terminated(content)) == Terminated(content)
  {
    var r := Terminated(content);
    assert r[..|content|] == content;
  }

  /** A section reads back as its terminated content between the banners of its name. */
  lemma SectionRoundTrip(filename: string, content: string)
    ensures var base := BannerName(filename);
      Unwrap(Section(filename, content), StartBanner(base), EndBanner(base)) == Some(Terminated(content))
  {
    var base := BannerName(filename);
    UnwrapRoundTrip(StartBanner(base), Terminated(content), EndBanner(base));
  }

  /** Sections of a listing split at any point are the sections of the parts, in order. */
  lemma SectionsAppend(xs: seq<string>, ys: seq<string>, read: string -> string)
    ensures Sections(xs + ys, read) == Sections(xs, read) + Sections(ys, read)
  {
    MapStringsAppend(xs, ys, PartOf(read));
    ConcatAppend(MapStrings(xs, PartOf(read)), MapStrings(ys, PartOf(read)));
  }

  /** Only result files contribute: the sections of a listing are those of its result files. */
  lemma SectionsOfResultFiles(names: seq<string>, read: string -> string)
    ensures Sections(names, read) == Sections(Filter(names, IsResultFile), read)
  {
    ConcatKept(names, PartOf(read), IsResultFile);
  }

  /**
   * Lines 151-152: the files merged are exactly the result files of the
   * listing, in sorted order, and never the consolidated file itself.
   */
  lemma MergedFiles(listing: seq<string>)
    ensures var merged := Filter(Sort(listing), IsResultFile);
      && Sorted(merged)
      && (forall n :: n in merged <==> n in listing && IsResultFile(n))
      && ConsolidatedName !in merged
  {
    var sorted := Sort(listing);
    FilterSorted(sorted, IsResultFile);
    forall n
      ensures n in sorted <==> n in listing
    {
      assert n in multiset(sorted) <==> n in multiset(listing);
    }
  }

  /**
   * Lines 137-172: after a successful batch the consolidated file is the
   * header counting the successes, then one section per result file of
   * the listing, in sorted order; every other listed name adds nothing.
   */
  lemma ConsolidatedFile(stats: Stats, listing: seq<string>, read: string -> string, timestamp: string)
    requires stats.success > 0
    ensures Respond(stats, listing, read, timestamp)
         == Consolidated(stats, "/download/" + ConsolidatedName,
                         Header(stats.success, timestamp) + Sections(Filter(Sort(listing), IsResultFile), read))
  {
    SectionsOfResultFiles(Sort(listing), read);
  }

  /** An output name with an ordinary stem shows that stem in its banners. */
  lemma BannerNameOfOutput(stem: string)
    requires !Contains(stem, "output_inserts_")
    requires forall i :: 0 <= i < |stem| ==> !OccursAt(stem + ".sql", ".sql", i)
    ensures BannerName("output_inserts_" + stem + ".sql") == stem
  {
    var pre := "output_inserts_";
    var t := stem + ".sql";
    assert pre + stem + ".sql" == pre + t;
    RemoveAllLeading(t, pre);
    assert !Contains(t, pre) by {
      if Contains(t, pre) {
        var i: nat :| i <= |t| && OccursAt(t, pre, i);
        OccurrenceInside(stem, ".sql", pre, i);
        assert false;
      }
    }
    RemoveAllAbsent(t, pre);
    RemoveAllTrailing(stem, ".sql");
  }
}

=== FILE: whitespace.dfy ===
/**
 * The `.strip()` applied to the coordinates text before the scan
 * (`kmlToSql.py` line 91), and the proof that it never changes what the
 * scan finds: whitespace can neither begin nor continue a match, so the
 * scan of the stripped text is the scan of the original text.
 */
module Whitespace {
  import opened Options
  import opened Text
  import opened Coordinates

  // ---------------------------------------------------------------------
  // `str.strip()` before the scan
  // ---------------------------------------------------------------------

  /** Python's `str.isspace()` for one character. */
  predicate IsSpace(c: char) {
    || ('\t' <= c <= '\r')
    || ('\U{1C}' <= c <= ' ')
    || c == '\U{85}' || c == '\U{A0}' || c == '\U{1680}'
    || ('\U{2000}' <= c <= '\U{200A}')
    || c == '\U{2028}' || c == '\U{2029}' || c == '\U{202F}' || c == '\U{205F}' || c == '\U{3000}'
  }

  predicate AllSpace(w: string) {
    forall k :: 0 <= k < |w| ==> IsSpace(w[k])
  }

  /** Leading whitespace removed: `r` is what follows the longest all-space prefix of `s`. */
  function StripLeft(s: string): (r: string)
    ensures |r| <= |s|
    ensures forall k :: 0 <= k < |r| ==> r[k] == s[|s| - |r| + k]
    ensures forall k :: 0 <= k < |s| - |r| ==> IsSpace(s[k])
    ensures |r| > 0 ==> !IsSpace(r[0])
  {
    if |s| > 0 && IsSpace(s[0]) then
      var t := s[1..];
      var r := StripLeft(t);
      assert forall k :: 0 <= k < |t| ==> t[k] == s[k + 1];
      r
    else s
  }

  /** Trailing whitespace removed: `r` is what precedes the longest all-space suffix of `s`. */
  function StripRight(s: string): (r: string)
    ensures |r| <= |s|
    ensures forall k :: 0 <= k < |r| ==> r[k] == s[k]
    ensures forall k :: |r| <= k < |s| ==> IsSpace(s[k])
    ensures |r| > 0 ==> !IsSpace(r[|r| - 1])
  {
    if |s| > 0 && IsSpace(s[|s| - 1]) then
      var t := s[..|s| - 1];
      var r := StripRight(t);
      assert forall k :: 0 <= k < |t| ==> t[k] == s[k];
      r
    else s
  }

  /** Python's `s.strip()`: leading and trailing whitespace removed. */
  function Strip(s: string): (r: string)
    ensures |r| > 0 ==> !IsSpace(r[0]) && !IsSpace(r[|r| - 1])
  {
    StripRight(StripLeft(s))
  }

  /** What `Strip` removed: whitespace before the result and whitespace after it. */
  lemma StripParts(s: string) returns (w1: string, w2: string)
    ensures AllSpace(w1) && AllSpace(w2)
    ensures s == w1 + Strip(s) + w2
  {
    var l := StripLeft(s);
    var r := StripRight(l);
    w1 := StripLeftPart(s);
    w2 := StripRightPart(l);
    AppendAssociative(w1, r, w2);
  }

  lemma StripLeftPart(s: string) returns (w: string)
    ensures AllSpace(w) && s == w + StripLeft(s)
  {
    var l := StripLeft(s);
    w := s[..|s| - |l|];
    assert s == w + l;
  }

  lemma StripRightPart(s: string) returns (w: string)
    ensures AllSpace(w) && s == StripRight(s) + w
  {
    var r := StripRight(s);
    w := s[|r|..];
    assert s == r + w;
  }

  lemma AppendAssociative(a: string, b: string, c: string)
    ensures a + (b + c) == a + b + c
  {
  }

  /** Characters that cannot be part of a match. */
  predicate Inert(c: char) {
    !IsDecimalDigit(c) && c != '-' && c != '.' && c != ','
  }

  predicate AllInert(w: string) {
    forall k :: 0 <= k < |w| ==> Inert(w[k])
  }

  function ShiftSpan(m: Span, d: nat): Span {
    Span(m.start + d, m.comma + d, m.end + d)
  }

  function ShiftMatch(r: Option<Span>, d: nat): Option<Span> {
    match r
    case None => None
    case Some(m) => Some(ShiftSpan(m, d))
  }

  function ShiftSpans(spans: seq<Span>, d: nat): (r: seq<Span>)
    ensures |r| == |spans|
    ensures forall k :: 0 <= k < |r| ==> r[k] == ShiftSpan(spans[k], d)
  {
    if |spans| == 0 then [] else [ShiftSpan(spans[0], d)] + ShiftSpans(spans[1..], d)
  }

  lemma {:induction false} DigitRunShift(w: string, s: string, i: nat)
    requires i <= |s|
    ensures DigitRun(w + s, |w| + i) == |w| + DigitRun(s, i)
    decreases |s| - i
  {
    if i < |s| && IsDecimalDigit(s[i]) {
      assert (w + s)[|w| + i] == s[i];
      DigitRunShift(w, s, i + 1);
    } else if i < |s| {
      assert (w + s)[|w| + i] == s[i];
    }
  }

  /** Matching a pattern depends only on the text from where it starts. */
  lemma {:induction false} MatchTokensShift(w: string, s: string, start: nat, sep: nat, i: nat, pat: seq<Token>)
    requires i <= |s|
    ensures MatchTokens(w + s, |w| + start, |w| + sep, |w| + i, pat) ==
      ShiftMatch(MatchTokens(s, start, sep, i, pat), |w|)
    decreases |pat|
  {
    if |pat| > 0 {
      if i < |s| {
        assert (w + s)[|w| + i] == s[i];
      }
      match pat[0]
      case OptionalMinus =>
        MatchTokensShift(w, s, start, sep, if i < |s| && s[i] == '-' then i + 1 else i, pat[1..]);
      case Digits =>
        DigitRunShift(w, s, i);
        MatchTokensShift(w, s, start, sep, DigitRun(s, i), pat[1..]);
      case Literal(c) =>
        if i < |s| && s[i] == c {
          MatchTokensShift(w, s, start, sep, i + 1, pat[1..]);
        }
      case Separator =>
        if i < |s| && s[i] == ',' {
          MatchTokensShift(w, s, start, i, i + 1, pat[1..]);
        }
    }
  }

  /** A match depends only on the text from its position on. */
  lemma MatchAtShift(w: string, s: string, i: nat)
    requires i <= |s|
    ensures MatchAt(w + s, |w| + i) == ShiftMatch(MatchAt(s, i), |w|)
  {
    if i < |s| {
      MatchTokensShift(w, s, i, i, i, PairPattern);
    }
  }

  /** Text put in front of `s` shifts the scan of `s` and changes nothing else. */
  lemma {:induction false} ScanFromShift(w: string, s: string, i: nat)
    requires i <= |s|
    ensures ScanFrom(w + s, |w| + i) == ShiftSpans(ScanFrom(s, i), |w|)
    decreases |s| - i
  {
    if i == |s| {
      assert ScanFrom(w + s, |w| + i) == [];
    } else {
      var j := ShiftStep(w, s, i);
      ScanFromShift(w, s, j);
    }
  }

  /**
   * Where the scan of `s` goes next from `i`, and that the shifted scan
   * agrees from `i` once it agrees from there.
   */
  lemma ShiftStep(w: string, s: string, i: nat) returns (j: nat)
    requires i < |s|
    ensures i < j <= |s|
    ensures ScanFrom(w + s, |w| + j) == ShiftSpans(ScanFrom(s, j), |w|)
        ==> ScanFrom(w + s, |w| + i) == ShiftSpans(ScanFrom(s, i), |w|)
  {
    if MatchAt(s, i).Some? {
      j := TakeNext(w, s, i);
    } else {
      j := SkipNext(w, s, i);
    }
  }

  /** `ShiftStep` where `s` has no match at `i`: the scan moves on by one. */
  lemma SkipNext(w: string, s: string, i: nat) returns (j: nat)
    requires i < |s| && MatchAt(s, i).None?
    ensures j == i + 1
    ensures ScanFrom(w + s, |w| + j) == ShiftSpans(ScanFrom(s, j), |w|)
        ==> ScanFrom(w + s, |w| + i) == ShiftSpans(ScanFrom(s, i), |w|)
  {
    j := i + 1;
    if ScanFrom(w + s, |w| + j) == ShiftSpans(ScanFrom(s, j), |w|) {
      ShiftSkipStep(w, s, i);
    }
  }

  /** `ShiftStep` where `s` has a match at `i`: the scan resumes at its end. */
  lemma TakeNext(w: string, s: string, i: nat) returns (j: nat)
    requires i < |s| && MatchAt(s, i).Some?
    ensures i < j <= |s|
    ensures ScanFrom(w + s, |w| + j) == ShiftSpans(ScanFrom(s, j), |w|)
        ==> ScanFrom(w + s, |w| + i) == ShiftSpans(ScanFrom(s, i), |w|)
  {
    MatchAtPlaced(s, i);
    j := MatchAt(s, i).value.end;
    if ScanFrom(w + s, |w| + j) == ShiftSpans(ScanFrom(s, j), |w|) {
      ShiftTakeStep(w, s, i);
    }
  }

  /** The step of `ScanFromShift` where `s` has a match at `i`. */
  lemma ShiftTakeStep(w: string, s: string, i: nat)
    requires i < |s| && MatchAt(s, i).Some?
    requires var e := MatchAt(s, i).value.end;
      e <= |s| && ScanFrom(w + s, |w| + e) == ShiftSpans(ScanFrom(s, e), |w|)
    ensures ScanFrom(w + s, |w| + i) == ShiftSpans(ScanFrom(s, i), |w|)
  {
    var m := MatchAt(s, i).value;
    ScanFromTake(s, i);
    ShiftedTake(w, s, i);
    ShiftSpansCons(m, ScanFrom(s, m.end), |w|);
  }

  /** The step of `ScanFromShift` where `s` has no match at `i`. */
  lemma ShiftSkipStep(w: string, s: string, i: nat)
    requires i < |s| && MatchAt(s, i).None?
    requires ScanFrom(w + s, |w| + i + 1) == ShiftSpans(ScanFrom(s, i + 1), |w|)
    ensures ScanFrom(w + s, |w| + i) == ShiftSpans(ScanFrom(s, i), |w|)
  {
    ScanFromSkip(s, i);
    ShiftedSkip(w, s, i);
  }

  /** Where `s` has a match at `i`, the scan of `w + s` takes it at `|w| + i`, shifted. */
  lemma ShiftedTake(w: string, s: string, i: nat)
    requires i < |s| && MatchAt(s, i).Some?
    ensures ScanFrom(w + s, |w| + i)
         == [ShiftSpan(MatchAt(s, i).value, |w|)] + ScanFrom(w + s, |w| + MatchAt(s, i).value.end)
  {
    ShiftedMatch(w, s, i);
    ScanFromTake(w + s, |w| + i);
  }

  /** Where `s` has no match at `i`, the scan of `w + s` moves past `|w| + i`. */
  lemma ShiftedSkip(w: string, s: string, i: nat)
    requires i < |s| && MatchAt(s, i).None?
    ensures ScanFrom(w + s, |w| + i) == ScanFrom(w + s, |w| + i + 1)
  {
    ShiftedNoMatch(w, s, i);
  }

  lemma ShiftedMatch(w: string, s: string, i: nat)
    requires i < |s| && MatchAt(s, i).Some?
    ensures MatchAt(w + s, |w| + i) == Some(ShiftSpan(MatchAt(s, i).value, |w|))
  {
    MatchAtShift(w, s, i);
  }

  lemma ShiftedNoMatch(w: string, s: string, i: nat)
    requires i < |s| && MatchAt(s, i).None?
    ensures MatchAt(w + s, |w| + i).None?
  {
    MatchAtShift(w, s, i);
  }

  lemma ShiftSpansCons(m: Span, rest: seq<Span>, d: nat)
    ensures ShiftSpans([m] + rest, d) == [ShiftSpan(m, d)] + ShiftSpans(rest, d)
  {
    assert ([m] + rest)[1..] == rest;
  }

  /** No match starts on a character that cannot begin a number. */
  lemma NoMatchOnInert(s: string, i: nat)
    requires i < |s| && Inert(s[i])
    ensures MatchAt(s, i).None?
  {
    MatchAtUnfold(s, i);
    NumberEndUnfold(s, i);
  }

  /** Leading inert text is skipped over by the scan. */
  lemma {:induction false} ScanSkipsInertPrefix(w: string, s: string, i: nat)
    requires AllInert(w) && i <= |w|
    ensures ScanFrom(w + s, i) == ScanFrom(w + s, |w|)
    decreases |w| - i
  {
    var ws := w + s;
    if i < |w| {
      assert MatchAt(ws, i).None? by {
        assert ws[i] == w[i];
        NoMatchOnInert(ws, i);
      }
      assert ScanFrom(ws, i) == ScanFrom(ws, i + 1);
      ScanSkipsInertPrefix(w, s, i + 1);
    }
  }

  lemma {:induction false} DigitRunSuffix(s: string, w: string, i: nat)
    requires AllInert(w) && i <= |s|
    ensures DigitRun(s + w, i) == DigitRun(s, i)
    decreases |s| - i
  {
    if i < |s| {
      assert (s + w)[i] == s[i];
      DigitRunSuffix(s, w, i + 1);
    } else if |w| > 0 {
      assert (s + w)[i] == w[0];
    }
  }

  /** Every literal of `pat` is a character that can be part of a match. */
  predicate LiteralsActive(pat: seq<Token>) {
    forall k :: 0 <= k < |pat| && pat[k].Literal? ==> !Inert(pat[k].c)
  }

  /** Inert text after the end of `s` changes no match of such a pattern. */
  lemma {:induction false} MatchTokensSuffix(s: string, w: string, start: nat, sep: nat, i: nat, pat: seq<Token>)
    requires AllInert(w) && i <= |s| && LiteralsActive(pat)
    ensures MatchTokens(s + w, start, sep, i, pat) == MatchTokens(s, start, sep, i, pat)
    decreases |pat|
  {
    if |pat| > 0 {
      assert LiteralsActive(pat[1..]) by {
        forall k | 0 <= k < |pat[1..]| && pat[1..][k].Literal?
          ensures !Inert(pat[1..][k].c)
        {
          assert pat[1..][k] == pat[k + 1];
        }
      }
      if i < |s| {
        assert (s + w)[i] == s[i];
      } else if |w| > 0 {
        assert (s + w)[i] == w[0];
      }
      match pat[0]
      case OptionalMinus =>
        MatchTokensSuffix(s, w, start, sep, if i < |s| && s[i] == '-' then i + 1 else i, pat[1..]);
      case Digits =>
        DigitRunSuffix(s, w, i);
        MatchTokensSuffix(s, w, start, sep, DigitRun(s, i), pat[1..]);
      case Literal(c) =>
        assert !Inert(pat[0].c);
        if i < |s| && s[i] == c {
          MatchTokensSuffix(s, w, start, sep, i + 1, pat[1..]);
        }
      case Separator =>
        if i < |s| && s[i] == ',' {
          MatchTokensSuffix(s, w, start, i, i + 1, pat[1..]);
        }
    }
  }

  /** Trailing inert text neither adds a match nor lengthens one. */
  lemma MatchAtSuffix(s: string, w: string, i: nat)
    requires AllInert(w) && i <= |s|
    ensures MatchAt(s + w, i) == MatchAt(s, i)
  {
    assert LiteralsActive(PairPattern);
    MatchTokensSuffix(s, w, i, i, i, PairPattern);
    if i == |s| && MatchAt(s + w, i).Some? {
      MatchAtUnfold(s + w, i);
      MatchAtUnfold(s, i);
      NumberEndBounds(s, i);
    }
  }

  lemma {:induction false} ScanFromSuffix(s: string, w: string, i: nat)
    requires AllInert(w) && i <= |s|
    ensures ScanFrom(s + w, i) == ScanFrom(s, i)
    decreases |s + w| - i
  {
    MatchAtSuffix(s, w, i);
    if i < |s| {
      match MatchAt(s, i)
      case Some(m) =>
        MatchAtPlaced(s, i);
        ScanFromSuffix(s, w, m.end);
      case None =>
        ScanFromSuffix(s, w, i + 1);
    } else if i < |s + w| {
      ScanFromInertTail(s + w, i);
    }
  }

  /** Scanning text that is inert from `i` on finds nothing. */
  lemma {:induction false} ScanFromInertTail(s: string, i: nat)
    requires i <= |s|
    requires forall k :: i <= k < |s| ==> Inert(s[k])
    ensures ScanFrom(s, i) == []
    decreases |s| - i
  {
    if i < |s| {
      NoMatchOnInert(s, i);
      ScanFromInertTail(s, i + 1);
    }
  }

  lemma PairsOfShift(w: string, s: string, spans: seq<Span>)
    requires forall k :: 0 <= k < |spans| ==> Placed(s, spans[k])
    requires forall k :: 0 <= k < |spans| ==> Placed(w + s, ShiftSpans(spans, |w|)[k])
    ensures PairsOf(w + s, ShiftSpans(spans, |w|)) == PairsOf(s, spans)
  {
    var shifted := ShiftSpans(spans, |w|);
    forall k | 0 <= k < |spans|
      ensures PairOf(w + s, shifted[k]) == PairOf(s, spans[k])
    {
      PairOfShift(w, s, spans[k]);
    }
  }

  /** The pair of a span is the pair of the shifted span once text is put in front. */
  lemma PairOfShift(w: string, s: string, m: Span)
    requires Placed(s, m)
    ensures Placed(w + s, ShiftSpan(m, |w|))
    ensures PairOf(w + s, ShiftSpan(m, |w|)) == PairOf(s, m)
  {
    SliceShift(w, s, m.start, m.comma);
    SliceShift(w, s, m.comma + 1, m.end);
    assert (w + s)[m.comma + |w|] == s[m.comma];
  }

  lemma SliceShift(w: string, s: string, a: nat, b: nat)
    requires a <= b <= |s|
    ensures (w + s)[a + |w|..b + |w|] == s[a..b]
  {
    var x, y := (w + s)[a + |w|..b + |w|], s[a..b];
    assert forall j :: 0 <= j < |y| ==> x[j] == y[j];
  }

  lemma PairsOfSuffix(s: string, w: string, spans: seq<Span>)
    requires forall k :: 0 <= k < |spans| ==> Placed(s, spans[k])
    requires forall k :: 0 <= k < |spans| ==> Placed(s + w, spans[k])
    ensures PairsOf(s + w, spans) == PairsOf(s, spans)
  {
    forall k | 0 <= k < |spans|
      ensures PairOf(s + w, spans[k]) == PairOf(s, spans[k])
    {
      var m := spans[k];
      assert (s + w)[m.start..m.comma] == s[m.start..m.comma];
      assert (s + w)[m.comma + 1..m.end] == s[m.comma + 1..m.end];
    }
  }

  /** Inert text before the coordinates does not change the pairs found. */
  lemma ScanInertPrefix(w: string, s: string)
    requires AllInert(w)
    ensures Scan(w + s) == Scan(s)
  {
    ScanSkipsInertPrefix(w, s, 0);
    ScanFromShift(w, s, 0);
    PairsOfShift(w, s, ScanFrom(s, 0));
  }

  /** Inert text after the coordinates does not change the pairs found. */
  lemma ScanInertSuffix(s: string, w: string)
    requires AllInert(w)
    ensures Scan(s + w) == Scan(s)
  {
    ScanFromSuffix(s, w, 0);
    PairsOfSuffix(s, w, ScanFrom(s, 0));
  }

  lemma SpaceIsInert(w: string)
    requires AllSpace(w)
    ensures AllInert(w)
  {
  }

  /** The `.strip()` on line 91 never changes what line 92 finds. */
  lemma ScanIgnoresStrip(s: string)
    ensures Scan(Strip(s)) == Scan(s)
  {
    var r := Strip(s);
    var w1, w2 := StripParts(s);
    AppendAssociative(w1, r, w2);
    SpaceIsInert(w1);
    SpaceIsInert(w2);
    ScanInertPrefix(w1, r + w2);
    ScanInertSuffix(r, w2);
    assert Scan(s) == Scan(w1 + (r + w2)) == Scan(r + w2) == Scan(r);
  }
}
